=== FILE: README.md ===
# Event translation app: audio session, consoles, player, access control

This project models the decision logic of a live-event translation web app. An
administrator captures the event audio and publishes it to Flue.live. A
translator listens to that stream and publishes a translation. The audience
plays the streams. Access is checked by role, and the API is guarded by a
CORS middleware.

Everything is pure functions over immutable records:

- The audio session store (`AudioStore`) is a state machine. Each of its six
  actions is a transition function. An invariant is proved for every state
  reachable by any sequence of actions.
- The admin capture panel (`PersistentController`) and the translator console
  (`TranslationController`) return the state after a handler. They also
  return the external calls the handler made (capture, publish, subscribe,
  disconnect, stop tracks, play) and the alert it raised.
- The audience player (`StreamPlayer`) chooses WebRTC or the HLS fallback,
  the media element, and the volume.
- Sign-in (`Login`), the route guard (`ProtectedRoute`), and the role table
  they share (`Roles`) give the navigation each combination of auth and
  profile outcomes leads to.
- The CORS middleware (`Cors`) gives the response headers for a request.
- The event editor (`EventManagement`) gives the record it saves, the channel
  rows it writes, and the form it fills back from a stored event.

Shared vocabulary lives in `Common`: options, JavaScript truthiness of
strings, and ASCII case mapping. `Media` holds the constraints, device
lists, Flue.live URLs and external calls. `Numbers` holds `Number.parseInt`
and integer printing.

The media, WebRTC and database calls are not performed. Each is represented
by an outcome parameter that says how it settled: a stream, a failure, an
error message, or the rows returned. Objects created by the code (streaming
clients, media streams, audio contexts) are opaque numeric handles supplied
by the caller.

Notes on the code as written:

- The store has no already-capturing guard: a second capture replaces the
  stream and the client.
- The store keeps one streaming client, not separate ingress and egress
  clients.
- No unmount handler consults the persistence flag.
- Listening has no egress fallback when negotiation fails.
- Stream keys and secrets go into the Flue.live URLs without encoding. A
  key holding '&', '#', '+', '%', a tab or a newline does not read back
  unchanged from its URL, and neither does a key or secret that ends the
  URL with a space or a control character: the URL parser removes tabs and
  newlines everywhere and trims such characters off both ends.
- The translator console stores the microphone stream before it builds the
  audio graph. When building the graph fails, the stream stays stored and
  live, with no audio context and no analyser, and no connection is
  reported.

## Model

| member | source | states |
|---|---|---|
| Media.AudioConstraints | lib/stores/audio-store.ts:44-51 | the exact device is requested exactly when a non-empty id is given; echo cancellation and noise suppression on, automatic gain off |
| Media.AudioInputs | components/translator/translation-controller.tsx:56 | the device list keeps exactly the audio inputs, and its head is the first audio input of the enumeration |
| Media.AudioInputsOfConcat | components/translator/translation-controller.tsx:56 | filtering works piecewise, so the kept devices keep their order and their repetitions |
| Media.AudioInputsOfOne | components/translator/translation-controller.tsx:56 | a single device is kept exactly when it is an audio input |
| Media.RefreshDevices | components/translator/translation-controller.tsx:53-66 | a failed enumeration changes nothing; an existing selection is kept; an empty selection becomes the first audio input; a changed selection is a listed device; the admin panel's device effect (components/admin/persistent-audio-controller.tsx lines 35-49) is the same and is modelled by it too |
| Media.DeviceLabel | components/admin/persistent-audio-controller.tsx:103 | a device shows its label, or "Microfone " and at most eight characters of its id |
| Media.WhipUrl | lib/stores/audio-store.ts:109 | the publish URL is the Flue.live WHIP endpoint, then `?app=live&stream=`, the key, `&secret=` and the secret, as written |
| Media.WhepUrl | components/stream-player.tsx:52 | the playback URL is the Flue.live WHEP endpoint, then `?stream=` and the key, as written |
| Media.WhepUrlRoundTrip | components/stream-player.tsx:52 | the parsed playback URL gives back exactly the stream key it was built from, for every key without '&', '#', '+', '%', tab or newline that does not end in a space or control character |
| Media.WhipUrlRoundTrip | lib/stores/audio-store.ts:109 | the parsed publish URL gives back exactly the key and the secret it was built from, when neither holds '&', '#', '+', '%', tab or newline and the secret does not end in a space or control character |
| Media.AmpersandCutsKey | components/stream-player.tsx:52 | the key is inserted unencoded, so a key with an '&' reads back cut at the '&' |
| Media.HashCutsKey | components/stream-player.tsx:52 | a key with a '#' reads back cut at the '#', which starts the fragment |
| Media.PlusBecomesSpace | components/stream-player.tsx:52 | a key with a '+' reads back with a space in its place, and without the spaces and control characters that ended it |
| Media.TrailingSpaceDropped | components/stream-player.tsx:52 | a key ending in a space reads back without it, since the space ends the URL |
| Media.TabDropped | components/stream-player.tsx:52 | a tab inside a key is removed from the key that reads back |
| AudioStore.InitialIsIdle | lib/stores/audio-store.ts:30-37 | the store starts idle, consistent and not persistent |
| AudioStore.StartCapture | lib/stores/audio-store.ts:40-68 | one capture call on a new client; a stream makes the store capture with that stream and client and changes nothing else; a falsy result changes nothing; a rejection changes nothing and is rethrown |
| AudioStore.StopCapture | lib/stores/audio-store.ts:71-93 | the store becomes idle except for the persistence flag; the held stream's tracks are stopped and the held client disconnected, and nothing else is called |
| AudioStore.PublishConfig | lib/stores/audio-store.ts:104-110 | the publish configuration carries the key and secret, and its URL gives them back when neither holds '&', '#', '+', '%', tab or newline and the secret does not end in a space or control character |
| AudioStore.StartStreaming | lib/stores/audio-store.ts:96-125 | without a stream or client it throws "Audio capture must be started first" and calls nothing; otherwise it publishes the held stream through the held client; it succeeds exactly when publishing does, and then records key and secret, changing nothing else |
| AudioStore.StopStreaming | lib/stores/audio-store.ts:128-144 | with a client it disconnects it, installs a new client and forgets the event while keeping the capture; without one it does nothing |
| AudioStore.UpdateAudioLevel | lib/stores/audio-store.ts:147-149 | only the meter changes |
| AudioStore.SetPersistent | lib/stores/audio-store.ts:152-154 | only the persistence flag changes |
| AudioStore.ApplyKeepsInv | lib/stores/audio-store.ts:39-154 | every action preserves the store invariant |
| AudioStore.RunKeepsInv | lib/stores/audio-store.ts:28-155 | any sequence of actions from a consistent state ends in a consistent state |
| AudioStore.ReachableStatesAreConsistent | lib/stores/audio-store.ts:28-155 | in every reachable state, streaming implies capturing; capturing holds exactly when a stream and a client are held; key and secret are held exactly while streaming |
| AudioStore.StopCaptureIdempotent | lib/stores/audio-store.ts:71-93 | stopping a stopped store changes nothing and calls nothing |
| AudioStore.CaptureThenStopLeavesNothing | lib/stores/audio-store.ts:40-93 | a capture followed by a stop ends where a stop alone would; the stop releases the captured stream and client |
| AudioStore.NoStreamingWithoutCapture | lib/stores/audio-store.ts:96-101 | a consistent store that is not capturing cannot start streaming |
| PersistentController.HandleStartCapture | components/admin/persistent-audio-controller.tsx:51-58 | captures from the selected device; success turns persistence on; a rejection alerts and leaves the store, flag included, unchanged |
| PersistentController.HandleStopCapture | components/admin/persistent-audio-controller.tsx:60-63 | the store ends idle and not persistent |
| PersistentController.HandleStartStreaming | components/admin/persistent-audio-controller.tsx:65-76 | without both a key and a secret it alerts and never reaches the store; otherwise it succeeds exactly when the store can publish, and alerts otherwise with the store unchanged |
| PersistentController.StreamingControl | components/admin/persistent-audio-controller.tsx:157-162 | the stream button exists only while capturing, stops while streaming, and is disabled unless both key and secret are present |
| PersistentController.EnabledStartReachesStore | components/admin/persistent-audio-controller.tsx:157-162 | pressing the enabled start button publishes the captured stream with the event's credentials |
| PersistentController.LevelBarWidth | components/admin/persistent-audio-controller.tsx:118 | the bar width is the level capped at 100 |
| PersistentController.LevelLabel | components/admin/persistent-audio-controller.tsx:121 | the printed level is the nearest integer, halves up |
| TranslationController.ConnectMicrophone | components/translator/translation-controller.tsx:89-123 | asks for the selected device with the shared constraints; a grant holds stream, context and analyser and reports the connection; a refusal alerts and changes nothing; a failure after the stream was stored alerts, reports nothing and keeps the stream |
| TranslationController.DisconnectMicrophone | components/translator/translation-controller.tsx:125-142 | releases stream and audio context, stops recording and listening, reports both off, and leaves the listening and transmitting clients alone |
| TranslationController.OutputVolumeAsWrittenRejected | components/translator/translation-controller.tsx:166 | the listening volume computed at the slider's maximum is one the media element refuses |
| TranslationController.OutputVolume | components/translator/translation-controller.tsx:240-242 | the output volume is always accepted by the media element, equals gain/100 up to 100 and is full volume above |
| TranslationController.AssignedOutputVolume | components/translator/translation-controller.tsx:240-242 | the output element accepts gain/100 for gains 0..100 and throws for every gain outside that range |
| TranslationController.OutputGainEffect | components/translator/translation-controller.tsx:239-243 | whatever volume the slider's effect assigns lies within the element's 0..1 range |
| TranslationController.SlidingPastFullVolumeThrows | components/translator/translation-controller.tsx:239-243 | the slider starts at a position the effect accepts, and the effect throws exactly at the positions past 100, the first of which is 105 |
| TranslationController.CappedEffectAcceptsEverySlider | components/translator/translation-controller.tsx:239-243 | with the volume capped, the effect accepts every slider position and agrees with the code up to 100 |
| TranslationController.StartListening | components/translator/translation-controller.tsx:144-178 | with no event key it alerts and calls nothing; otherwise it subscribes a new client to the playback URL of the key without a secret, attaches the remote stream, sets its volume to gain/100 and plays it; it succeeds exactly when subscribing succeeds and, for a remote stream, the volume is accepted and playing succeeds; a failed subscribe or one without a remote stream leaves the output alone and makes only the subscribe call; only the listening client, output and flag change; it never publishes |
| TranslationController.StartListeningCapped | components/translator/translation-controller.tsx:163-170 | with the volume capped at full, listening fails only when subscribing or playing fails, for every slider position |
| TranslationController.CappedListeningAgreesUpToFullVolume | components/translator/translation-controller.tsx:166 | for gains up to 100 the capped handler behaves exactly as written |
| TranslationController.ListeningAboveFullVolumeFails | components/translator/translation-controller.tsx:166 | for the handler alone: above 100 a remote stream that would subscribe and play fails as written, and listens when capped |
| TranslationController.StopListening | components/translator/translation-controller.tsx:180-192 | disconnects the listening client if any, detaches the output and clears listening, and nothing else |
| TranslationController.StartTransmission | components/translator/translation-controller.tsx:194-221 | without microphone, key or secret it alerts and calls nothing; otherwise it publishes only the microphone stream with those credentials on a new client |
| TranslationController.StopTransmission | components/translator/translation-controller.tsx:223-230 | with a transmitting client it disconnects it and reports transmission off; otherwise nothing happens |
| TranslationController.SumBounds | components/translator/translation-controller.tsx:77 | the byte sum is at most 255 per bin, zero exactly for silence and maximal exactly for full scale |
| TranslationController.NormalisedLevel | components/translator/translation-controller.tsx:77-78 | the level lies in 0..100, is 0 exactly when every bin is 0 and 100 exactly when every bin is 255 |
| TranslationController.PollLevel | components/translator/translation-controller.tsx:68-87 | a level is reported exactly while connected with an analyser, and it lies in 0..100 |
| TranslationController.ApplyKeepsInv | components/translator/translation-controller.tsx:53-230 | every console handler keeps the console consistent |
| TranslationController.RunKeepsInv | components/translator/translation-controller.tsx:45-230 | any sequence of handlers from a consistent console ends consistent |
| TranslationController.ReachableConsolesAreConsistent | components/translator/translation-controller.tsx:45-230 | in every reachable console an analyser is held exactly with an audio context, a context only over a stored stream, listening and an attached output only with a listening client, and recording never starts |
| TranslationController.FailedSetupKeepsStream | components/translator/translation-controller.tsx:100-122 | a connection whose audio graph fails leaves the stream held without context or analyser, and unreported |
| TranslationController.ConnectThenDisconnectLeavesNothing | components/translator/translation-controller.tsx:89-142 | connecting then disconnecting ends where disconnecting alone would, stopping the granted stream and closing its context |
| TranslationController.ListenThenStopLeavesNothing | components/translator/translation-controller.tsx:144-192 | listening then stopping ends where stopping alone would, disconnecting the client listening created |
| TranslationController.TransmitThenStopLeavesNothing | components/translator/translation-controller.tsx:194-230 | transmitting then stopping ends where stopping alone would, disconnecting the client the transmission created |
| TranslationController.TransmissionPublishesMicrophoneOnly | components/translator/translation-controller.tsx:212-213 | the translation publish never sends the received stream or uses the listening client |
| StreamPlayer.IsVideoStream | components/stream-player.tsx:119 | only streams typed VIDEO or LIBRAS are video streams; an untyped stream is not |
| StreamPlayer.ElementFor | components/stream-player.tsx:70-71 | the effects drive the video element exactly for a VIDEO or LIBRAS stream, and the audio element otherwise or with no stream |
| StreamPlayer.SetupStream | components/stream-player.tsx:25-66 | no stream changes nothing; a Flue stream with a key plays the remote WebRTC stream on the element of its type when one exists and otherwise falls back to HLS on the key's playback URL; any other stream plays its own URL over HLS; a stream is attached exactly when WebRTC is chosen |
| StreamPlayer.AttachedElementIsDrivenElement | components/stream-player.tsx:36-44 | the element a remote stream is attached to is the one play and volume drive, the video element exactly for VIDEO and LIBRAS |
| StreamPlayer.FallbackNamesFlueKey | components/stream-player.tsx:51-54 | the HLS fallback URL gives back the stream's key whenever the key holds no '&', '#', '+', '%', tab or newline and does not end in a space or control character |
| StreamPlayer.ElementSource | components/stream-player.tsx:131 | the element's source is the stream URL over HLS and none otherwise |
| StreamPlayer.EffectiveVolume | components/stream-player.tsx:82-89 | muted is silent; otherwise the slider as a fraction, within 0..1 for slider values 0..100 |
| StreamPlayer.TogglePlay | components/stream-player.tsx:91-94 | the parent, when listening, is told the opposite of the current playing state |
| StreamPlayer.BadgeText | components/stream-player.tsx:157-163 | for a live connection the badge begins with the status word (a shape fact; the badges of distinct connections differ by IndicatorsDistinguishConnections) |
| StreamPlayer.StatusText | components/stream-player.tsx:211 | the status reads "Offline" exactly when disconnected |
| StreamPlayer.StatusColour | components/stream-player.tsx:207 | the status dot is always a 500-shade background class (a shape fact; distinct connections get distinct colours by IndicatorsDistinguishConnections) |
| StreamPlayer.IndicatorsDistinguishConnections | components/stream-player.tsx:157-211 | the badge, the status word and the status colour each tell the three connection types apart |
| Roles.LandingRoute | app/login/page.tsx:68-79 | every role lands on the admin area, the translator area or home, and a missing role lands home |
| Roles.LandingRouteAdmits | app/login/page.tsx:68-79 | the role switch sends exactly the roles the admin layout admits to the admin area, exactly those the translator layout admits to the translator area, and everyone else home |
| ProtectedRoute.CheckAuth | components/auth/protected-route.tsx:23-67 | the check always ends; no session or a failed lookup redirects unauthorised; no required roles admits any session; otherwise the user is admitted exactly when the profile role is required, and else sent to the landing route of the role |
| ProtectedRoute.RefusedUserLandsWhereAdmitted | components/auth/protected-route.tsx:44-59 | a refused user sent to the admin or translator area is admitted by that area's guard |
| ProtectedRoute.Render | components/auth/protected-route.tsx:83-98 | the spinner shows exactly while loading, the children exactly when loaded and authorised |
| ProtectedRoute.ChildrenOnlyWhenAuthorized | components/auth/protected-route.tsx:23-98 | the children are shown only for a session the check authorised |
| ProtectedRoute.OnAuthStateChange | components/auth/protected-route.tsx:72-78 | signing out or losing the session redirects to the guard's target, and nothing else does |
| ProtectedRoute.ListenerAgreesWithCheck | components/auth/protected-route.tsx:27-33 | a lost session sends the user where the check on mount sends a visitor without a session; with a live session only signing out redirects |
| Login.EmailPrefix | app/login/page.tsx:53 | the name taken from an email is its text before the first '@' |
| Login.ProfileName | app/login/page.tsx:53 | a new profile takes the metadata name when non-empty, else the email prefix |
| Login.HandleLogin | app/login/page.tsx:23-87 | loading always ends; an auth error shows its message; an exception shows the generic error; a user without a profile gets a "USER" profile and goes home, or sees the profile error; a user with a profile goes to the landing route of the role; an error is shown exactly when no navigation happens, except when no user or an empty message comes back |
| Login.NewProfileRoutedLikeItsRole | app/login/page.tsx:50-79 | a newly created profile lands where its "USER" role would land on the next sign-in |
| Cors.AllowedOrigins | middleware.ts:5-17 | the production site (configured or default), local development, and the preview deployment when one is named, in that order |
| Cors.Middleware | middleware.ts:19-43 | a preflight answers with the request's headers plus the allowed methods and headers; other requests pass on; the origin is echoed exactly when it is non-empty and listed |
| Cors.PreflightAgreesWithRequest | middleware.ts:24-40 | a preflight and the request it clears grant the same origin |
| Cors.PassOnGrantsOnlyListedOrigins | middleware.ts:35-40 | a passed-on response only ever grants the request's own, listed origin |
| Cors.PreflightEchoesClientAllowOrigin | middleware.ts:24-33 | an allow-origin header sent by the client returns in the preflight for an unlisted origin |
| Common.ToUpper | components/admin/event-management.tsx:122 | upper-casing keeps the length and turns each ASCII lower-case letter into its capital, leaving every other character alone |
| Common.ToLower | components/admin/event-management.tsx:229 | lower-casing keeps the length and turns each ASCII capital into its lower-case letter, leaving every other character alone |
| EventManagement.GenerateStreamKey | components/admin/event-management.tsx:228-230 | the default key is the lower-case code plus "-principal", never empty, and carried intact by the unencoded URLs exactly when the code holds none of the characters that the query cuts, decodes or removes |
| EventManagement.StreamKeyIgnoresCase | components/admin/event-management.tsx:127 | codes differing only in case get the same default key |
| EventManagement.BuildEventData | components/admin/event-management.tsx:117-129 | the saved code is upper case; an empty cap is null and any other is parsed; empty key and secret are replaced by the default key and the random secret; everything else is copied |
| EventManagement.SavedRecordHasCredentials | components/admin/event-management.tsx:127-128 | a saved record always has a stream key and, given a non-empty random secret, a secret |
| EventManagement.Assignments | components/admin/event-management.tsx:146-152 | one active pt-BR to en-US channel row per translator, in order, for the saved event |
| EventManagement.AssignmentsRoundTrip | components/admin/event-management.tsx:146-152 | the channel rows name the assigned translators back, in order |
| EventManagement.ResetForm | components/admin/event-management.tsx:204-221 | the form returns to its initial values, nothing is edited or assigned, the form is hidden |
| EventManagement.ResetFormForgetsEverything | components/admin/event-management.tsx:50-62 | resetting is idempotent and independent of the previous editor; a reset form saves no cap and the bare default key |
| EventManagement.Submit | components/admin/event-management.tsx:112-167 | the event is updated or inserted; channels are replaced only when translators are assigned; success refreshes and resets the editor; a failed write alerts and keeps the form; loading always ends |
| EventManagement.EmptyAssignmentKeepsChannels | components/admin/event-management.tsx:143-156 | with no translator assigned no channel is deleted or written |
| EventManagement.LoadedAssignmentIds | components/admin/event-management.tsx:106 | the loaded ids are exactly the non-empty ones, from the channel rows |
| EventManagement.LoadedIdsOfConcat | components/admin/event-management.tsx:106 | loading filters piecewise, so the kept ids keep their order and number whatever falsy ids sit between them |
| EventManagement.LoadedIdsOfOne | components/admin/event-management.tsx:106 | a single id is kept exactly when it is non-empty |
| EventManagement.LoadedIdsOfCleanList | components/admin/event-management.tsx:106 | a list without empty ids loads back unchanged and in order |
| EventManagement.EditForm | components/admin/event-management.tsx:171-183 | times cut to 16 characters; the cap printed so it parses back to itself; missing optional fields as empty strings |
| EventManagement.HandleEdit | components/admin/event-management.tsx:169-187 | the event is edited with its form filled and shown; a failed channel query leaves the assignment list alone |
| EventManagement.ResaveIsStable | components/admin/event-management.tsx:117-183 | editing a saved event and saving it again unchanged writes the same record |
| EventManagement.TranslatorSelection | components/admin/event-management.tsx:317 | choosing a translator assigns exactly it, and clearing the choice assigns none |
| EventManagement.SelectValue | components/admin/event-management.tsx:316 | the select shows the first assigned translator, or nothing |
| EventManagement.SelectShowsSelection | components/admin/event-management.tsx:316-317 | the select shows back what was chosen in it |
| EventManagement.TypedCodeSavedAsShown | components/admin/event-management.tsx:278 | a code typed into the upper-casing input is saved exactly as displayed |
| EventManagement.StreamingSelectable | components/admin/event-management.tsx:469 | the streaming-select button is offered only for events holding both a stream key and a secret |
| EventManagement.SavedEventsAreSelectable | components/admin/event-management.tsx:469 | every event saved through the editor offers the streaming-select button |
| EventManagement.SelectedEventPassesStreamingGuard | components/admin/event-management.tsx:469 | an event offers the button exactly when its key and secret pass the capture panel's streaming guard |
| Numbers.ParseInt | components/admin/event-management.tsx:126 | nothing after white space, or a first character that is neither digit nor sign, gives NaN; a negative result needs a leading minus |
| Numbers.IntToString | components/admin/event-management.tsx:180 | the printed integer is non-empty and starts with a minus exactly when negative |
| Numbers.ParseIntOfIntToString | components/admin/event-management.tsx:180 | a printed integer parses back to itself |

## Left out

- Media devices, WebRTC negotiation, Supabase queries and navigation are not performed. Their outcomes are parameters, and their effects are recorded calls or returned routes.
- `lib/audio/webrtc-client` is not part of this model. Its methods are opaque calls that either succeed or fail.
- Logging (`console.*`) is not modelled: it has no effect on state.
- Floating point: levels and volumes are exact reals. Rounding differences in the average and the gain divisions are not modelled.
- `Math.random` is not modelled. The Flue secret generator is a parameter of `BuildEventData` and `Submit`. The access-code generator and the simulated metrics are not modelled.
- `Numbers.ParseInt`: no precision limit at 2^53, and no exponent form in printing. Both concern integers far beyond a participant cap.
- Common.ToUpper / Common.ToLower: ASCII letters only. Other characters are unchanged, whereas JavaScript maps all Unicode letters.
- The gain nodes of the translator console are not modelled, because they are never connected to the published stream. The microphone gain slider therefore changes nothing that is published.
- The persistent panel's gain slider is not modelled: its value is never used.
- `isRecording` in the translator console is never set to true. It is kept but stays false.
- The translator console's output element is always mounted, so the "no element" branches are not modelled.
- TranslationController.StartListening: describes the handler alone. In the component a gain above 100 is only reached through the slider's effect, which throws first (SlidingPastFullVolumeThrows). What React does with an exception thrown in an effect is not modelled, and the console actions do not include the slider.
- Media.WhepUrlRoundTrip: the stream key is inserted into the playback URL unencoded, so the round trip is promised only for keys without '&', '#', '+', '%', tab or newline that do not end in a space or control character. AmpersandCutsKey, HashCutsKey, PlusBecomesSpace, TrailingSpaceDropped and TabDropped show what other keys read back as. The reader is the form-urlencoded query reading of URLSearchParams with ASCII escapes only; how Flue.live itself reads its URLs is not part of this model.
- Media.WhipUrlRoundTrip: the key and the secret are inserted into the publish URL unencoded, so the round trip is promised only when neither holds '&', '#', '+', '%', tab or newline and the secret, which ends the URL, does not end in a space or control character.
- Media.Param: of the URL parser only the clean-up of the input (tabs and newlines removed, spaces and control characters trimmed off both ends) and the split into query and fragment are modelled. Host parsing, path normalisation and the percent-encoding the parser applies to the query are not; the characters a key can hold that it would encode (spaces, control characters, non-ASCII) are decoded back by the reader, so they do not change what reads back.
- The outer catch of `setupStream` is not modelled: no statement in its try block can throw except the probe, which has its own catch.
- ProtectedRoute.CheckAuth: models the check on mount. When the effect re-runs, `authorized` and `loading` start from their previous values, and that is not modelled.
- The middleware's route matcher (`/api/:path*`) is not modelled: it is framework routing configuration.
- Header names are lower-case map keys, as the Headers API normalises them. A header sent more than once is one value.
- TranslationController.NormalisedLevel: requires a non-empty bin array. The analyser's `fftSize` of 256 gives 128 bins; the source would divide by zero on none.
- EventManagement.Stored: models a saved row as read back verbatim, with NaN caps turned into null as JSON does. Database reformatting of timestamps is not modelled; the 16-character cut on edit absorbs it.
- Event deletion, the event list and translator list loading, and the statistics dashboards are not modelled. They only read, delete or display rows.

## Findings

| source | as written | input that shows it | evidently intended | confidence | as-written member | corrected member |
|---|---|---|---|---|---|---|
| components/translator/translation-controller.tsx:241 | the output gain slider runs to 150 in steps of 5, and its effect sets the always-mounted output element's volume to gain/100 (as does startListening at line 166) | moving the output slider past 100, to 105, makes the effect assign 1.05, which the element's volume setter rejects with IndexSizeError; the exception escapes the effect | the volume stays within the element's 0..1 range; gains above 100 play at full volume | high, not executed | TranslationController.SlidingPastFullVolumeThrows | TranslationController.CappedEffectAcceptsEverySlider |

=== FILE: audio_store.dfy ===
/** The process-wide audio session store (`useAudioStore`): one microphone
    stream, one streaming client, the level meter, the event the capture is
    being published to, and the persistence flag that lets the capture
    outlive a page. Every action is a pure transition; the awaited media and
    publish calls become outcome parameters, `new WebRTCClient()` becomes a
    new client handle supplied by the caller, and the calls the store makes
    are recorded in order. */
module AudioStore {
  import opened Common
  import opened Media

  datatype State = State(
    isCapturing: bool,
    mediaStream: Option<StreamId>,
    webRTCClient: Option<ClientId>,
    audioLevel: real,
    currentEventKey: Option<string>,
    currentSecret: Option<string>,
    isStreaming: bool,
    isPersistent: bool)

  const Initial := State(false, None, None, 0.0, None, None, false, false)

  /** What one action did: the next state, the external calls made, and the
      error the action threw (rejected with), if any. */
  datatype Step = Step(state: State, calls: seq<Call>, thrown: Option<string>)

  /** How `client.captureMedia(constraints)` settled: a stream, a falsy
      value, or a rejection with the given message. */
  datatype CaptureResult = Captured(stream: StreamId) | NoStream | CaptureFailed(message: string)

  const NotCapturingError := "Audio capture must be started first"

  /** The consistency the store keeps between its fields. */
  predicate Inv(s: State) {
    && (s.isStreaming ==> s.isCapturing)
    && (s.isCapturing <==> s.mediaStream.Some?)
    && (s.isCapturing <==> s.webRTCClient.Some?)
    && (s.currentEventKey.Some? <==> s.isStreaming)
    && (s.currentSecret.Some? <==> s.isStreaming)
  }

  /** No capture, no client, nothing streamed, meter at zero. */
  predicate Idle(s: State) {
    && !s.isCapturing && s.mediaStream.None? && s.webRTCClient.None?
    && !s.isStreaming && s.currentEventKey.None? && s.currentSecret.None?
    && s.audioLevel == 0.0
  }

  lemma InitialIsIdle()
    ensures Idle(Initial) && Inv(Initial) && !Initial.isPersistent
  {
  }

  /** `startCapture(deviceId)`: asks a new client for a stream. A stream
      makes the store capture with it and that client, whatever it held
      before (there is no already-capturing guard); a falsy result changes
      nothing; a rejection changes nothing and is rethrown. */
  function StartCapture(s: State, deviceId: Option<string>, newClient: ClientId, result: CaptureResult): (r: Step)
    ensures r.calls == [CaptureMedia(newClient, AudioConstraints(deviceId))]
    ensures result.Captured? ==>
              && r.thrown.None?
              && r.state.isCapturing
              && r.state.mediaStream == Some(result.stream)
              && r.state.webRTCClient == Some(newClient)
              && r.state.(isCapturing := s.isCapturing, mediaStream := s.mediaStream, webRTCClient := s.webRTCClient) == s
    ensures result.NoStream? ==> r.state == s && r.thrown.None?
    ensures result.CaptureFailed? ==> r.state == s && r.thrown == Some(result.message)
    ensures Inv(s) ==> Inv(r.state)
  {
    var calls := [CaptureMedia(newClient, AudioConstraints(deviceId))];
    match result
    case Captured(m) => Step(s.(isCapturing := true, mediaStream := Some(m), webRTCClient := Some(newClient)), calls, None)
    case NoStream => Step(s, calls, None)
    case CaptureFailed(e) => Step(s, calls, Some(e))
  }

  /** `stopCapture()`: stops the stream's tracks, disconnects the client, and
      resets everything but the persistence flag. */
  function StopCapture(s: State): (r: Step)
    ensures Idle(r.state) && Inv(r.state)
    ensures r.state.isPersistent == s.isPersistent
    ensures r.thrown.None?
    ensures s.mediaStream.Some? ==> StopTracks(s.mediaStream.value) in r.calls
    ensures s.webRTCClient.Some? ==> Disconnect(s.webRTCClient.value) in r.calls
    ensures forall c :: c in r.calls ==>
              || (c.StopTracks? && s.mediaStream == Some(c.stream))
              || (c.Disconnect? && s.webRTCClient == Some(c.client))
    ensures |r.calls| == (if s.mediaStream.Some? then 1 else 0) + (if s.webRTCClient.Some? then 1 else 0)
  {
    var stops := if s.mediaStream.Some? then [StopTracks(s.mediaStream.value)] else [];
    var disconnects := if s.webRTCClient.Some? then [Disconnect(s.webRTCClient.value)] else [];
    Step(State(false, None, None, 0.0, None, None, false, s.isPersistent), stops + disconnects, None)
  }

  /** The configuration `startStreaming` publishes with. */
  function PublishConfig(key: string, secret: string): (c: StreamConfig)
    ensures c.key == key && c.secret == Some(secret)
    ensures QuerySafe(key) && SafeAtEnd(secret) ==> WhipCredentials(c.url) == Some((key, secret))
  {
    assert QuerySafe(key) && SafeAtEnd(secret) ==> WhipCredentials(WhipUrl(key, secret)) == Some((key, secret)) by {
      if QuerySafe(key) && SafeAtEnd(secret) {
        WhipUrlRoundTrip(key, secret);
      }
    }
    StreamConfig(key, Some(secret), WhipUrl(key, secret))
  }

  /** `startStreaming(key, secret)`: throws unless a stream and a client are
      present; otherwise publishes that stream through that client and, if
      publishing succeeds (`publishError` is `None`), records the key and the
      secret; a publish rejection is rethrown and changes nothing. */
  function StartStreaming(s: State, key: string, secret: string, publishError: Option<string>): (r: Step)
    ensures s.mediaStream.None? || s.webRTCClient.None? ==>
              r.state == s && r.calls == [] && r.thrown == Some(NotCapturingError)
    ensures s.mediaStream.Some? && s.webRTCClient.Some? ==>
              r.calls == [Publish(s.webRTCClient.value, PublishConfig(key, secret), s.mediaStream.value)]
    ensures r.thrown.None? <==> s.mediaStream.Some? && s.webRTCClient.Some? && publishError.None?
    ensures r.thrown.Some? ==> r.state == s
    ensures r.thrown.None? ==>
              && r.state.isStreaming
              && r.state.currentEventKey == Some(key)
              && r.state.currentSecret == Some(secret)
              && r.state.(isStreaming := s.isStreaming, currentEventKey := s.currentEventKey, currentSecret := s.currentSecret) == s
    ensures Inv(s) ==> Inv(r.state)
  {
    if s.mediaStream.None? || s.webRTCClient.None? then Step(s, [], Some(NotCapturingError))
    else
      var calls := [Publish(s.webRTCClient.value, PublishConfig(key, secret), s.mediaStream.value)];
      match publishError
      case Some(e) => Step(s, calls, Some(e))
      case None => Step(s.(isStreaming := true, currentEventKey := Some(key), currentSecret := Some(secret)), calls, None)
  }

  /** `stopStreaming()`: with a client, disconnects it, puts a new client
      in its place and forgets the event, keeping the capture; without a
      client, does nothing. */
  function StopStreaming(s: State, newClient: ClientId): (r: Step)
    ensures r.thrown.None?
    ensures s.webRTCClient.None? ==> r.state == s && r.calls == []
    ensures s.webRTCClient.Some? ==>
              && r.calls == [Disconnect(s.webRTCClient.value)]
              && r.state.webRTCClient == Some(newClient)
              && !r.state.isStreaming && r.state.currentEventKey.None? && r.state.currentSecret.None?
              && r.state.isCapturing == s.isCapturing && r.state.mediaStream == s.mediaStream
              && r.state.audioLevel == s.audioLevel && r.state.isPersistent == s.isPersistent
    ensures Inv(s) ==> Inv(r.state)
  {
    match s.webRTCClient
    case None => Step(s, [], None)
    case Some(c) =>
      Step(s.(webRTCClient := Some(newClient), isStreaming := false, currentEventKey := None, currentSecret := None),
           [Disconnect(c)], None)
  }

  /** `updateAudioLevel(level)`: only the meter changes. */
  function UpdateAudioLevel(s: State, level: real): (r: State)
    ensures r.audioLevel == level && r.(audioLevel := s.audioLevel) == s
    ensures Inv(s) ==> Inv(r)
  {
    s.(audioLevel := level)
  }

  /** `setPersistent(persistent)`: only the flag changes. */
  function SetPersistent(s: State, persistent: bool): (r: State)
    ensures r.isPersistent == persistent && r.(isPersistent := s.isPersistent) == s
    ensures Inv(s) ==> Inv(r)
  {
    s.(isPersistent := persistent)
  }

  /** One store action with the outcomes of its external calls. */
  datatype Action =
    | StartCaptureAction(deviceId: Option<string>, newClient: ClientId, result: CaptureResult)
    | StopCaptureAction
    | StartStreamingAction(key: string, secret: string, publishError: Option<string>)
    | StopStreamingAction(newClient: ClientId)
    | UpdateAudioLevelAction(level: real)
    | SetPersistentAction(persistent: bool)

  function Apply(s: State, a: Action): State {
    match a
    case StartCaptureAction(d, f, res) => StartCapture(s, d, f, res).state
    case StopCaptureAction => StopCapture(s).state
    case StartStreamingAction(k, sec, e) => StartStreaming(s, k, sec, e).state
    case StopStreamingAction(f) => StopStreaming(s, f).state
    case UpdateAudioLevelAction(l) => UpdateAudioLevel(s, l)
    case SetPersistentAction(p) => SetPersistent(s, p)
  }

  /** The state after a sequence of actions. */
  function Run(s: State, actions: seq<Action>): State
    decreases |actions|
  {
    if |actions| == 0 then s else Run(Apply(s, actions[0]), actions[1..])
  }

  /** Every action keeps the invariant. */
  lemma ApplyKeepsInv(s: State, a: Action)
    requires Inv(s)
    ensures Inv(Apply(s, a))
  {
    match a
    case StartCaptureAction(d, f, res) =>
    case StopCaptureAction =>
    case StartStreamingAction(k, sec, e) =>
    case StopStreamingAction(f) =>
    case UpdateAudioLevelAction(l) =>
    case SetPersistentAction(p) =>
  }

  /** Every state reachable from a state satisfying the invariant satisfies
      it: streaming implies capturing, capturing holds exactly when a stream
      and a client are present, and an event key and secret are held exactly
      while streaming. */
  lemma {:induction false} RunKeepsInv(s: State, actions: seq<Action>)
    requires Inv(s)
    ensures Inv(Run(s, actions))
    decreases |actions|
  {
    if |actions| > 0 {
      ApplyKeepsInv(s, actions[0]);
      RunKeepsInv(Apply(s, actions[0]), actions[1..]);
    }
  }

  /** The invariant holds in every state the store can reach. */
  lemma ReachableStatesAreConsistent(actions: seq<Action>)
    ensures Inv(Run(Initial, actions))
  {
    RunKeepsInv(Initial, actions);
  }

  /** Stopping twice is stopping once. */
  lemma StopCaptureIdempotent(s: State)
    ensures StopCapture(StopCapture(s).state).state == StopCapture(s).state
    ensures StopCapture(StopCapture(s).state).calls == []
  {
  }

  /** A capture followed by a stop leaves no trace but the persistence flag:
      the store ends where stopping right away would have left it. */
  lemma CaptureThenStopLeavesNothing(s: State, deviceId: Option<string>, newClient: ClientId, result: CaptureResult)
    ensures StopCapture(StartCapture(s, deviceId, newClient, result).state).state == StopCapture(s).state
    ensures result.Captured? ==>
              StopCapture(StartCapture(s, deviceId, newClient, result).state).calls == [StopTracks(result.stream), Disconnect(newClient)]
  {
  }

  /** Streaming can only begin on a capturing store: from a consistent
      state that is not capturing, `startStreaming` always throws. */
  lemma NoStreamingWithoutCapture(s: State, key: string, secret: string, publishError: Option<string>)
    requires Inv(s) && !s.isCapturing
    ensures StartStreaming(s, key, secret, publishError).thrown == Some(NotCapturingError)
    ensures !StartStreaming(s, key, secret, publishError).state.isStreaming
  {
  }
}

=== FILE: common.dfy ===
/** Shared vocabulary: optional values, JavaScript truthiness of strings,
    and the ASCII part of `toUpperCase` / `toLowerCase`. */
module Common {

  /** A value that may be absent (`null` / `undefined` in the source). */
  datatype Option<+T> = None | Some(value: T) {
    function GetOr(default: T): T {
      match this
      case Some(v) => v
      case None => default
    }
  }

  /** JavaScript truthiness of an optional string: present and not empty. */
  predicate Truthy(s: Option<string>) {
    s.Some? && s.value != ""
  }

  /** The JavaScript expression `s || fallback` on an optional string. */
  function OrElse(s: Option<string>, fallback: string): string {
    if Truthy(s) then s.value else fallback
  }

  predicate StartsWith(s: string, prefix: string) {
    |prefix| <= |s| && s[..|prefix|] == prefix
  }

  /** `s.slice(0, n)` for a non-negative `n`. */
  function Take(s: string, n: nat): (r: string)
    ensures |r| == if n < |s| then n else |s|
    ensures StartsWith(s, r)
  {
    if n < |s| then s[..n] else s
  }

  predicate IsAsciiLower(c: char) { 'a' <= c <= 'z' }
  predicate IsAsciiUpper(c: char) { 'A' <= c <= 'Z' }

  function UpperChar(c: char): char {
    if IsAsciiLower(c) then (c as int - 32) as char else c
  }

  function LowerChar(c: char): char {
    if IsAsciiUpper(c) then (c as int + 32) as char else c
  }

  /** `s.toUpperCase()` restricted to the ASCII letters. */
  function ToUpper(s: string): (r: string)
    ensures |r| == |s|
    ensures forall i :: 0 <= i < |s| ==> r[i] == UpperChar(s[i])
  {
    seq(|s|, i requires 0 <= i < |s| => UpperChar(s[i]))
  }

  /** `s.toLowerCase()` restricted to the ASCII letters. */
  function ToLower(s: string): (r: string)
    ensures |r| == |s|
    ensures forall i :: 0 <= i < |s| ==> r[i] == LowerChar(s[i])
  {
    seq(|s|, i requires 0 <= i < |s| => LowerChar(s[i]))
  }

  /** Lower-casing forgets a prior upper-casing: the two spellings of an
      access code give the same lower-case form. */
  lemma LowerOfUpper(s: string)
    ensures ToLower(ToUpper(s)) == ToLower(s)
  {
    var a, b := ToLower(ToUpper(s)), ToLower(s);
    forall i | 0 <= i < |s|
      ensures a[i] == b[i]
    {
      var c := s[i];
      if IsAsciiLower(c) {
        assert UpperChar(c) as int == c as int - 32;
      }
    }
  }

  /** Upper-casing is idempotent. */
  lemma UpperIdempotent(s: string)
    ensures ToUpper(ToUpper(s)) == ToUpper(s)
  {
  }

  /** Index of the first occurrence of `c` in `s`, or `|s|` if there is none. */
  function IndexOf(s: string, c: char): (k: nat)
    ensures k <= |s|
    ensures forall j :: 0 <= j < k ==> s[j] != c
    ensures k < |s| ==> s[k] == c
  {
    if |s| == 0 then 0
    else if s[0] == c then 0
    else 1 + IndexOf(s[1..], c)
  }
}

=== FILE: cors.dfy ===
/** The CORS middleware in front of the API routes: the allowed origins come
    from the deployment's environment, a preflight is answered directly, and
    every other request passes through with the origin echoed back when it is
    allowed. Header names are case-insensitive, so header maps here are keyed
    by lower-case names, as the Headers API stores them. */
module Cors {
  import opened Common

  /** Header name (lower-case) to value. */
  type Headers = map<string, string>

  /** The two environment variables the middleware reads. */
  datatype Env = Env(siteUrl: Option<string>, vercelUrl: Option<string>)   // NEXT_PUBLIC_SITE_URL, VERCEL_URL

  const DefaultSiteUrl := "https://v0-repository-link-nu.vercel.app"
  const LocalOrigin := "http://localhost:3000"

  const OriginHeader := "origin"
  const AllowOriginHeader := "access-control-allow-origin"
  const AllowMethodsHeader := "access-control-allow-methods"
  const AllowHeadersHeader := "access-control-allow-headers"
  const AllowedMethods := "GET, POST, PUT, DELETE, OPTIONS"
  const AllowedRequestHeaders := "Content-Type, Authorization, apikey, x-client-info"

  /** `getAllowedOrigins()`: the production site (the configured URL, or the
      default one when it is unset or empty), the local development server,
      and the preview deployment when the platform names one. */
  function AllowedOrigins(env: Env): (origins: seq<string>)
    ensures |origins| == if Truthy(env.vercelUrl) then 3 else 2
    ensures origins[0] == (if Truthy(env.siteUrl) then env.siteUrl.value else DefaultSiteUrl)
    ensures origins[1] == LocalOrigin
    ensures Truthy(env.vercelUrl) ==> origins[2] == "https://" + env.vercelUrl.value
  {
    var origins := [OrElse(env.siteUrl, DefaultSiteUrl), LocalOrigin];
    if Truthy(env.vercelUrl) then origins + ["https://" + env.vercelUrl.value] else origins
  }

  /** An incoming request: its method (`verb`) and its headers. */
  datatype Request = Request(verb: string, headers: Headers)

  /** What the middleware answers: a preflight response with no body, or the
      request passed on to the route with the headers the middleware set on
      the response. */
  datatype Response = Preflight(headers: Headers) | PassOn(headers: Headers)

  /** `request.headers.get("origin")`. */
  function RequestOrigin(req: Request): Option<string> {
    if OriginHeader in req.headers then Some(req.headers[OriginHeader]) else None
  }

  /** The origin is present, non-empty and on the list. */
  predicate OriginAllowed(env: Env, origin: Option<string>) {
    Truthy(origin) && origin.value in AllowedOrigins(env)
  }

  /** `middleware(request)`. A preflight (`OPTIONS`) answers with a copy of
      the request's own headers, the allowed origin echoed when there is one,
      and the allowed methods and request headers; anything else passes on
      with only the allowed origin echoed. */
  function Middleware(env: Env, req: Request): (r: Response)
    ensures r.Preflight? <==> req.verb == "OPTIONS"
    ensures OriginAllowed(env, RequestOrigin(req)) ==>
              AllowOriginHeader in r.headers && r.headers[AllowOriginHeader] == RequestOrigin(req).value
    ensures r.PassOn? ==>
              && (AllowOriginHeader in r.headers <==> OriginAllowed(env, RequestOrigin(req)))
              && r.headers.Keys <= {AllowOriginHeader}
    ensures r.Preflight? ==>
              && AllowMethodsHeader in r.headers && r.headers[AllowMethodsHeader] == AllowedMethods
              && AllowHeadersHeader in r.headers && r.headers[AllowHeadersHeader] == AllowedRequestHeaders
              && r.headers.Keys == req.headers.Keys + {AllowMethodsHeader, AllowHeadersHeader}
                                   + (if OriginAllowed(env, RequestOrigin(req)) then {AllowOriginHeader} else {})
    ensures r.Preflight? ==>
              forall name :: name in req.headers && name != AllowMethodsHeader && name != AllowHeadersHeader
                             && (name != AllowOriginHeader || !OriginAllowed(env, RequestOrigin(req))) ==>
                name in r.headers && r.headers[name] == req.headers[name]
  {
    var origin := RequestOrigin(req);
    var allowed := Truthy(origin) && origin.value in AllowedOrigins(env);
    if req.verb == "OPTIONS" then
      var h := if allowed then req.headers[AllowOriginHeader := origin.value] else req.headers;
      Preflight(h[AllowMethodsHeader := AllowedMethods][AllowHeadersHeader := AllowedRequestHeaders])
    else
      PassOn(if allowed then map[AllowOriginHeader := origin.value] else map[])
  }

  /** One decision for both kinds of request: unless the request itself
      carries an allow-origin header, a preflight and the request it clears
      grant the same origin, or both grant none. */
  lemma PreflightAgreesWithRequest(env: Env, headers: Headers, verb: string)
    requires verb != "OPTIONS"
    requires AllowOriginHeader !in headers
    ensures var pre, main := Middleware(env, Request("OPTIONS", headers)), Middleware(env, Request(verb, headers));
            && (AllowOriginHeader in pre.headers <==> AllowOriginHeader in main.headers)
            && (AllowOriginHeader in main.headers ==> pre.headers[AllowOriginHeader] == main.headers[AllowOriginHeader])
  {
  }

  /** A passed-on response names an origin only when it is the request's own
      and on the list. */
  lemma PassOnGrantsOnlyListedOrigins(env: Env, req: Request)
    requires req.verb != "OPTIONS"
    ensures var r := Middleware(env, req);
            AllowOriginHeader in r.headers ==>
              RequestOrigin(req).Some? && r.headers[AllowOriginHeader] == RequestOrigin(req).value
              && r.headers[AllowOriginHeader] in AllowedOrigins(env) && r.headers[AllowOriginHeader] != ""
  {
  }

  /** Because the preflight copies the request's headers, an allow-origin
      header sent by the client comes back even when the origin is not on
      the list. */
  lemma PreflightEchoesClientAllowOrigin()
    ensures var req := Request("OPTIONS", map[OriginHeader := "https://elsewhere.example", AllowOriginHeader := "*"]);
            && !OriginAllowed(Env(None, None), RequestOrigin(req))
            && Middleware(Env(None, None), req).headers[AllowOriginHeader] == "*"
  {
    var req := Request("OPTIONS", map[OriginHeader := "https://elsewhere.example", AllowOriginHeader := "*"]);
    assert RequestOrigin(req) == Some("https://elsewhere.example");
    var origins := AllowedOrigins(Env(None, None));
    assert origins == [DefaultSiteUrl, LocalOrigin];
    assert "https://elsewhere.example"[8] != DefaultSiteUrl[8];
    assert "https://elsewhere.example"[0] != LocalOrigin[4];
  }
}

=== FILE: event_management.dfy ===
/** The admin's event editor (`EventManagement`): the form, the record it
    saves, the translator assignments it writes, the form filled back from a
    stored event, and which events can be chosen for streaming. Database
    replies and the random secret are inputs; the writes are recorded. */
module EventManagement {
  import opened Common
  import opened Numbers
  import Media
  import AudioStore
  import PersistentController

  /** The form's fields; every text input holds a string. */
  datatype EventForm = EventForm(
    name: string,
    description: string,
    startTime: string,
    endTime: string,
    accessCode: string,
    isActive: bool,
    librasEnabled: bool,
    translationEnabled: bool,
    maxParticipants: string,
    streamKey: string,
    flueSecret: string)

  const InitialForm := EventForm("", "", "", "", "", false, false, false, "", "", "")

  /** A row of the `events` table as the editor reads it back. */
  datatype Event = Event(
    id: string,
    name: string,
    description: Option<string>,
    startTime: string,
    endTime: string,
    accessCode: string,
    isActive: bool,
    librasEnabled: bool,
    translationEnabled: bool,
    maxParticipants: Option<int>,
    streamKey: Option<string>,
    flueSecret: Option<string>)

  /** The record `handleSubmit` sends: the participant cap is null (`None`)
      or what `Number.parseInt` made of the field, NaN included. */
  datatype EventData = EventData(
    name: string,
    description: string,
    startTime: string,
    endTime: string,
    accessCode: string,
    isActive: bool,
    librasEnabled: bool,
    translationEnabled: bool,
    maxParticipants: Option<Parsed>,
    streamKey: string,
    flueSecret: string)

  const StreamKeySuffix := "-principal"

  /** `generateStreamKey(accessCode)`: the lower-case code and a fixed
      suffix. The key never starts empty, and the playback and publish URLs
      carry it intact exactly when they would carry the code intact. */
  function GenerateStreamKey(accessCode: string): (key: string)
    ensures |key| == |accessCode| + |StreamKeySuffix| && key != ""
    ensures key[|accessCode|..] == StreamKeySuffix
    ensures forall i :: 0 <= i < |accessCode| ==> key[i] == LowerChar(accessCode[i])
    ensures Media.QuerySafe(key) <==> Media.QuerySafe(accessCode)
    ensures Media.SafeAtEnd(key) <==> Media.QuerySafe(accessCode)
  {
    var key := ToLower(accessCode) + StreamKeySuffix;
    assert forall i :: 0 <= i < |accessCode| ==> (Media.QueryUnsafe(key[i]) <==> Media.QueryUnsafe(accessCode[i]));
    assert forall i :: |accessCode| <= i < |key| ==> key[i] == StreamKeySuffix[i - |accessCode|];
    key
  }

  /** Codes that differ only in letter case get the same key. */
  lemma StreamKeyIgnoresCase(accessCode: string)
    ensures GenerateStreamKey(ToUpper(accessCode)) == GenerateStreamKey(accessCode)
  {
    LowerOfUpper(accessCode);
  }

  /** The `eventData` record built from the form: the access code upper-cased;
      an empty cap saved as null, any other parsed; an empty stream key
      replaced by the generated one and an empty secret by
      `generatedSecret` (the random one); everything else copied. */
  function BuildEventData(form: EventForm, generatedSecret: string): (d: EventData)
    ensures d.accessCode == ToUpper(form.accessCode)
    ensures d.maxParticipants.None? <==> form.maxParticipants == ""
    ensures d.maxParticipants.Some? ==> d.maxParticipants.value == ParseInt(form.maxParticipants)
    ensures form.streamKey != "" ==> d.streamKey == form.streamKey
    ensures form.streamKey == "" ==> d.streamKey == GenerateStreamKey(d.accessCode)
    ensures form.flueSecret != "" ==> d.flueSecret == form.flueSecret
    ensures form.flueSecret == "" ==> d.flueSecret == generatedSecret
    ensures d.name == form.name && d.description == form.description
    ensures d.startTime == form.startTime && d.endTime == form.endTime
    ensures d.isActive == form.isActive && d.librasEnabled == form.librasEnabled
    ensures d.translationEnabled == form.translationEnabled
  {
    StreamKeyIgnoresCase(form.accessCode);
    EventData(
      form.name, form.description, form.startTime, form.endTime,
      ToUpper(form.accessCode),
      form.isActive, form.librasEnabled, form.translationEnabled,
      if form.maxParticipants != "" then Some(ParseInt(form.maxParticipants)) else None,
      if form.streamKey != "" then form.streamKey else GenerateStreamKey(form.accessCode),
      if form.flueSecret != "" then form.flueSecret else generatedSecret)
  }

  /** A saved record always carries a stream key, and a secret whenever the
      generated one is non-empty. */
  lemma SavedRecordHasCredentials(form: EventForm, generatedSecret: string)
    requires generatedSecret != ""
    ensures BuildEventData(form, generatedSecret).streamKey != ""
    ensures BuildEventData(form, generatedSecret).flueSecret != ""
  {
  }

  /** A row of `translation_channels`. */
  datatype Assignment = Assignment(
    eventId: string,
    translatorId: string,
    baseLanguage: string,
    targetLanguage: string,
    isActive: bool)

  const BaseLanguage := "pt-BR"
  const TargetLanguage := "en-US"

  /** One active pt-BR to en-US channel per translator, in order. */
  function Assignments(eventId: string, translatorIds: seq<string>): (rows: seq<Assignment>)
    ensures |rows| == |translatorIds|
    ensures forall i :: 0 <= i < |rows| ==>
              rows[i] == Assignment(eventId, translatorIds[i], BaseLanguage, TargetLanguage, true)
  {
    seq(|translatorIds|, i requires 0 <= i < |translatorIds| =>
      Assignment(eventId, translatorIds[i], BaseLanguage, TargetLanguage, true))
  }

  /** The translators a channel list names, in order. */
  function TranslatorsOf(rows: seq<Assignment>): (ids: seq<string>)
    ensures |ids| == |rows|
    ensures forall i :: 0 <= i < |rows| ==> ids[i] == rows[i].translatorId
  {
    seq(|rows|, i requires 0 <= i < |rows| => rows[i].translatorId)
  }

  /** The written channels name the assigned translators back, and all
      belong to the saved event. */
  lemma AssignmentsRoundTrip(eventId: string, translatorIds: seq<string>)
    ensures TranslatorsOf(Assignments(eventId, translatorIds)) == translatorIds
    ensures forall a :: a in Assignments(eventId, translatorIds) ==> a.eventId == eventId && a.isActive
  {
  }

  /** The database writes `handleSubmit` makes. */
  datatype Write =
    | UpdateEvent(id: string, data: EventData)
    | InsertEvent(data: EventData)
    | DeleteAssignments(eventId: string)
    | InsertAssignments(rows: seq<Assignment>)

  /** The editor's state. */
  datatype Editor = Editor(
    form: EventForm,
    editing: Option<Event>,
    translatorIds: seq<string>,
    showForm: bool,
    loading: bool)

  const InitialEditor := Editor(InitialForm, None, [], false, true)

  /** `resetForm()`: the initial form, nothing edited, no translator
      assigned, the form hidden. */
  function ResetForm(e: Editor): (r: Editor)
    ensures r.form == InitialEditor.form && r.editing.None? && r.translatorIds == [] && !r.showForm
    ensures r.loading == e.loading
  {
    Editor(InitialForm, None, [], false, e.loading)
  }

  /** Resetting a reset editor changes nothing, and a reset editor saves a
      record that keeps nothing of the form before. */
  lemma ResetFormForgetsEverything(e: Editor, e2: Editor, generatedSecret: string)
    requires e.loading == e2.loading
    ensures ResetForm(ResetForm(e)) == ResetForm(e) == ResetForm(e2)
    ensures BuildEventData(ResetForm(e).form, generatedSecret).maxParticipants.None?
    ensures BuildEventData(ResetForm(e).form, generatedSecret).streamKey == StreamKeySuffix
  {
    assert ToUpper("") == "";
    assert ToLower("") == "";
  }

  /** How the event write went: rejected, or accepted with the id the
      database gave a new row (ignored for an update). */
  datatype WriteOutcome = WriteFailed | WriteOk(newId: string)

  /** What a submission did: the editor after it, the writes in order,
      whether it alerted, and whether the list and the statistics were
      refreshed. */
  datatype Submission = Submission(editor: Editor, writes: seq<Write>, alert: Option<string>, refreshed: bool)

  const SaveAlert := "Erro ao salvar evento"

  /** `handleSubmit`: updates the edited event or inserts a new one; when
      translators are assigned, deletes the event's channels and inserts one
      per translator. Success refreshes and resets the editor; a failed event
      write or channel insert alerts and keeps the form. The result of the
      channel delete is not looked at. Loading always ends false. */
  function Submit(e: Editor, generatedSecret: string, write: WriteOutcome, assignOk: bool): (r: Submission)
    ensures !r.editor.loading
    ensures var data := BuildEventData(e.form, generatedSecret);
            |r.writes| > 0 && r.writes[0] == if e.editing.Some? then UpdateEvent(e.editing.value.id, data) else InsertEvent(data)
    ensures write.WriteFailed? ==> |r.writes| == 1
    ensures write.WriteOk? ==>
              var eventId := if e.editing.Some? then e.editing.value.id else write.newId;
              r.writes[1..] == if |e.translatorIds| > 0 then [DeleteAssignments(eventId), InsertAssignments(Assignments(eventId, e.translatorIds))] else []
    ensures r.alert.None? <==> write.WriteOk? && (|e.translatorIds| == 0 || assignOk)
    ensures r.alert.Some? ==> r.alert == Some(SaveAlert) && r.editor == e.(loading := false) && !r.refreshed
    ensures r.alert.None? ==> r.editor == ResetForm(e).(loading := false) && r.refreshed
  {
    var data := BuildEventData(e.form, generatedSecret);
    var first := if e.editing.Some? then UpdateEvent(e.editing.value.id, data) else InsertEvent(data);
    match write
    case WriteFailed => Submission(e.(loading := false), [first], Some(SaveAlert), false)
    case WriteOk(newId) =>
      var eventId := if e.editing.Some? then e.editing.value.id else newId;
      if |e.translatorIds| > 0 then
        var writes := [first, DeleteAssignments(eventId), InsertAssignments(Assignments(eventId, e.translatorIds))];
        if assignOk then Submission(ResetForm(e).(loading := false), writes, None, true)
        else Submission(e.(loading := false), writes, Some(SaveAlert), false)
      else Submission(ResetForm(e).(loading := false), [first], None, true)
  }

  /** An empty assignment list never touches the existing channels. */
  lemma EmptyAssignmentKeepsChannels(e: Editor, generatedSecret: string, write: WriteOutcome, assignOk: bool)
    requires e.translatorIds == []
    ensures forall w :: w in Submit(e, generatedSecret, write, assignOk).writes ==> w.UpdateEvent? || w.InsertEvent?
  {
  }

  /** `loadAssignedTranslators`: the ids of the event's channels with the
      falsy ones dropped, in order. */
  function LoadedAssignmentIds(ids: seq<Option<string>>): (r: seq<string>)
    ensures |r| <= |ids|
    ensures forall id :: id in r ==> id != "" && Some(id) in ids
    ensures forall i :: 0 <= i < |ids| && Truthy(ids[i]) ==> ids[i].value in r
  {
    if |ids| == 0 then []
    else
      var rest := LoadedAssignmentIds(ids[1..]);
      assert forall i :: 1 <= i < |ids| ==> ids[i] == ids[1..][i - 1];
      if Truthy(ids[0]) then [ids[0].value] + rest else rest
  }

  /** Loading is a filter: it works piecewise, so the kept ids keep their
      order and their number, whatever falsy ids sit between them. */
  lemma {:induction false} LoadedIdsOfConcat(a: seq<Option<string>>, b: seq<Option<string>>)
    ensures LoadedAssignmentIds(a + b) == LoadedAssignmentIds(a) + LoadedAssignmentIds(b)
    decreases |a|
  {
    if |a| > 0 {
      assert (a + b)[1..] == a[1..] + b;
      assert (a + b)[0] == a[0];
      LoadedIdsOfConcat(a[1..], b);
    } else {
      assert a + b == b;
    }
  }

  /** A single id loads as itself when it is non-empty and vanishes
      otherwise. */
  lemma LoadedIdsOfOne(id: Option<string>)
    ensures LoadedAssignmentIds([id]) == if Truthy(id) then [id.value] else []
  {
    assert [id][1..] == [];
  }

  /** Loading keeps the order: an id list with no falsy entry comes back
      unchanged. */
  lemma {:induction false} LoadedIdsOfCleanList(ids: seq<string>)
    requires forall i :: 0 <= i < |ids| ==> ids[i] != ""
    ensures LoadedAssignmentIds(seq(|ids|, i requires 0 <= i < |ids| => Some(ids[i]))) == ids
  {
    if |ids| > 0 {
      var wrapped := seq(|ids|, i requires 0 <= i < |ids| => Some(ids[i]));
      var tail := ids[1..];
      assert wrapped[1..] == seq(|tail|, i requires 0 <= i < |tail| => Some(tail[i]));
      LoadedIdsOfCleanList(tail);
      assert ids == [ids[0]] + tail;
    }
  }

  /** The form `handleEdit` fills from a stored event: times cut to their
      first 16 characters (the `datetime-local` format), the cap printed in
      decimal, and absent optional fields as empty strings. */
  function EditForm(ev: Event): (f: EventForm)
    ensures f.startTime == Take(ev.startTime, 16) && f.endTime == Take(ev.endTime, 16)
    ensures f.description == ev.description.GetOr("")
    ensures ev.maxParticipants.None? ==> f.maxParticipants == ""
    ensures ev.maxParticipants.Some? ==> ParseInt(f.maxParticipants) == Num(ev.maxParticipants.value)
    ensures f.streamKey == OrElse(ev.streamKey, "") && f.flueSecret == OrElse(ev.flueSecret, "")
    ensures f.name == ev.name && f.accessCode == ev.accessCode
    ensures f.isActive == ev.isActive && f.librasEnabled == ev.librasEnabled
    ensures f.translationEnabled == ev.translationEnabled
  {
    assert ev.maxParticipants.Some? ==>
      ParseInt(IntToString(ev.maxParticipants.value)) == Num(ev.maxParticipants.value) by {
      if ev.maxParticipants.Some? {
        ParseIntOfIntToString(ev.maxParticipants.value, "");
        assert IntToString(ev.maxParticipants.value) + "" == IntToString(ev.maxParticipants.value);
      }
    }
    EventForm(
      ev.name, ev.description.GetOr(""),
      Take(ev.startTime, 16), Take(ev.endTime, 16),
      ev.accessCode,
      ev.isActive, ev.librasEnabled, ev.translationEnabled,
      if ev.maxParticipants.Some? then IntToString(ev.maxParticipants.value) else "",
      OrElse(ev.streamKey, ""), OrElse(ev.flueSecret, ""))
  }

  /** `handleEdit(event)`: edits the event with its form filled in and shows
      it; `loaded` is the channel query's ids, `None` when it failed, in
      which case the assignment list is left as it was. */
  function HandleEdit(e: Editor, ev: Event, loaded: Option<seq<Option<string>>>): (r: Editor)
    ensures r.editing == Some(ev) && r.form == EditForm(ev) && r.showForm
    ensures loaded.None? ==> r.translatorIds == e.translatorIds
    ensures loaded.Some? ==> r.translatorIds == LoadedAssignmentIds(loaded.value)
    ensures r.loading == e.loading
  {
    Editor(EditForm(ev), Some(ev), if loaded.Some? then LoadedAssignmentIds(loaded.value) else e.translatorIds, true, e.loading)
  }

  /** `NaN` goes over JSON as null; a number is stored as itself. */
  function StoredCap(cap: Option<Parsed>): Option<int> {
    if cap.Some? && cap.value.Num? then Some(cap.value.value) else None
  }

  /** The row the database holds after a record was saved under `id`. */
  function Stored(id: string, d: EventData): Event {
    Event(id, d.name, Some(d.description), d.startTime, d.endTime, d.accessCode,
          d.isActive, d.librasEnabled, d.translationEnabled,
          StoredCap(d.maxParticipants), Some(d.streamKey), Some(d.flueSecret))
  }

  /** Editing a saved event and saving it again without changes writes the
      same record, whatever the random secret is the second time: the code
      is already upper case, the key and secret are non-empty and kept, the
      cap prints and parses back, and times in the `datetime-local` form
      (at most 16 characters) survive the cut. */
  lemma {:induction false} ResaveIsStable(form: EventForm, secret: string, id: string, secret2: string)
    requires secret != ""
    requires |form.startTime| <= 16 && |form.endTime| <= 16
    requires form.maxParticipants != "" ==> ParseInt(form.maxParticipants).Num?
    ensures var d := BuildEventData(form, secret);
            BuildEventData(EditForm(Stored(id, d)), secret2) == d
  {
    var d := BuildEventData(form, secret);
    var f := EditForm(Stored(id, d));
    UpperIdempotent(form.accessCode);
    assert Take(d.startTime, 16) == d.startTime;
    assert Take(d.endTime, 16) == d.endTime;
    var d2 := BuildEventData(f, secret2);
    if d.maxParticipants.Some? {
      assert f.maxParticipants == IntToString(d.maxParticipants.value.value);
    }
    assert d2.maxParticipants == d.maxParticipants;
  }

  /** `value ? [value] : []`: choosing a translator in the select. */
  function TranslatorSelection(value: string): (ids: seq<string>)
    ensures |ids| <= 1
    ensures ids == [] <==> value == ""
    ensures forall id :: id in ids ==> id == value
  {
    if value != "" then [value] else []
  }

  /** `assignedTranslators[0] || ""`: what the select shows. */
  function SelectValue(translatorIds: seq<string>): (v: string)
    ensures |translatorIds| == 0 ==> v == ""
    ensures |translatorIds| > 0 ==> v == translatorIds[0]
  {
    if |translatorIds| > 0 && translatorIds[0] != "" then translatorIds[0] else ""
  }

  /** The select shows what was chosen in it. */
  lemma SelectShowsSelection(value: string)
    ensures SelectValue(TranslatorSelection(value)) == value
  {
  }

  /** The access code as typed: the input upper-cases every keystroke, and
      saving upper-cases again without changing it. */
  lemma TypedCodeSavedAsShown(form: EventForm, typed: string, generatedSecret: string)
    ensures BuildEventData(form.(accessCode := ToUpper(typed)), generatedSecret).accessCode == ToUpper(typed)
  {
    UpperIdempotent(typed);
  }

  /** An event row offers the "select for streaming" button only when it
      has both a stream key and a secret. */
  predicate StreamingSelectable(ev: Event)
    ensures StreamingSelectable(ev) ==> ev.streamKey.Some? && ev.flueSecret.Some?
  {
    Truthy(ev.streamKey) && Truthy(ev.flueSecret)
  }

  /** Every event saved through the editor (with a non-empty random secret)
      can be selected for streaming. */
  lemma SavedEventsAreSelectable(form: EventForm, secret: string, id: string)
    requires secret != ""
    ensures StreamingSelectable(Stored(id, BuildEventData(form, secret)))
  {
  }

  /** An event chosen with that button hands the capture panel a key and a
      secret that pass its guard: starting the stream always reaches the
      store, and an event without the button could not. */
  lemma SelectedEventPassesStreamingGuard(s: AudioStore.State, ev: Event, publishError: Option<string>)
    ensures StreamingSelectable(ev) <==>
              PersistentController.HandleStartStreaming(s, ev.streamKey, ev.flueSecret, publishError).alert
                != Some(PersistentController.NoEventAlert)
  {
  }
}

=== FILE: login.dfy ===
/** The login handler (`handleLogin`): signs in, looks up the profile,
    creates a "USER" profile when there is none, and routes by role. The
    Supabase calls are inputs; the error text, the loading flag, the profile
    insert and the navigation are outputs. */
module Login {
  import opened Common
  import opened Roles

  /** The signed-in user as Supabase returns it. */
  datatype AuthUser = AuthUser(id: string, email: Option<string>, metadataName: Option<string>)

  /** How `signInWithPassword` went: an auth error with its message, a
      response with or without a user, or an exception. */
  datatype SignIn = AuthError(message: string) | SignedIn(user: Option<AuthUser>) | SignInThrows

  /** How the profile query went: an error (no profile), or the row's role. */
  datatype ProfileQuery = ProfileError | ProfileRow(role: Option<string>)

  /** The profile row inserted for a user without one. */
  datatype NewProfile = NewProfile(id: string, email: Option<string>, name: Option<string>, role: string)

  /** The page once the handler is done. */
  datatype LoginView = LoginView(error: string, loading: bool, redirect: Option<string>, inserted: Option<NewProfile>)

  const ProfileCreationError := "Erro ao criar perfil do usuário"
  const UnexpectedError := "Erro inesperado durante o login"
  const NewUserRole := "USER"

  /** `email.split("@")[0]`: the text before the first '@', or all of it. */
  function EmailPrefix(email: string): (p: string)
    ensures StartsWith(email, p)
    ensures '@' !in p
    ensures |p| < |email| ==> email[|p|] == '@'
  {
    email[..IndexOf(email, '@')]
  }

  /** The name of a created profile: the metadata name when it is non-empty,
      else the email prefix, else nothing. */
  function ProfileName(user: AuthUser): (name: Option<string>)
    ensures Truthy(user.metadataName) ==> name == user.metadataName
    ensures !Truthy(user.metadataName) && user.email.Some? ==> name == Some(EmailPrefix(user.email.value))
    ensures !Truthy(user.metadataName) && user.email.None? ==> name.None?
  {
    if Truthy(user.metadataName) then user.metadataName
    else match user.email
      case Some(e) => Some(EmailPrefix(e))
      case None => None
  }

  /** `handleLogin`. The error shown before is cleared first, so the result
      does not depend on it; loading always ends false. */
  function HandleLogin(signIn: SignIn, profile: ProfileQuery, insertOk: bool): (r: LoginView)
    ensures !r.loading
    ensures r.error != "" <==> r.redirect.None? && !(signIn.SignedIn? && signIn.user.None?) && !(signIn.AuthError? && signIn.message == "")
    ensures signIn.AuthError? ==> r == LoginView(signIn.message, false, None, None)
    ensures signIn.SignInThrows? ==> r == LoginView(UnexpectedError, false, None, None)
    ensures signIn.SignedIn? && signIn.user.None? ==> r == LoginView("", false, None, None)
    ensures r.inserted.Some? <==> signIn.SignedIn? && signIn.user.Some? && profile.ProfileError?
    ensures r.inserted.Some? ==>
              var u := signIn.user.value;
              && r.inserted.value == NewProfile(u.id, u.email, ProfileName(u), NewUserRole)
              && (insertOk <==> r.redirect == Some(HomeRoute))
              && (!insertOk ==> r.error == ProfileCreationError)
    ensures signIn.SignedIn? && signIn.user.Some? && profile.ProfileRow? ==>
              r == LoginView("", false, Some(LandingRoute(profile.role)), None)
  {
    match signIn
    case SignInThrows => LoginView(UnexpectedError, false, None, None)
    case AuthError(message) => LoginView(message, false, None, None)
    case SignedIn(None) => LoginView("", false, None, None)
    case SignedIn(Some(user)) =>
      match profile
      case ProfileError =>
        var row := NewProfile(user.id, user.email, ProfileName(user), NewUserRole);
        if insertOk then LoginView("", false, Some(HomeRoute), Some(row))
        else LoginView(ProfileCreationError, false, None, Some(row))
      case ProfileRow(role) => LoginView("", false, Some(LandingRoute(role)), None)
  }

  /** A newly created profile is routed home, which is exactly where its
      "USER" role would be routed on the next login. */
  lemma NewProfileRoutedLikeItsRole(user: AuthUser)
    ensures HandleLogin(SignedIn(Some(user)), ProfileError, true).redirect ==
            HandleLogin(SignedIn(Some(user)), ProfileRow(Some(NewUserRole)), true).redirect
  {
  }
}

=== FILE: media.dfy ===
/** The browser media and streaming surface the audio core talks to, as
    values: opaque handles for streams and clients, the capture constraints,
    the device list, the Flue.live endpoint URLs and the external calls
    themselves (recorded, never performed). */
module Media {
  import opened Common

  /** Opaque handle of a `MediaStream`. */
  type StreamId = nat
  /** Opaque handle of a `WebRTCClient` instance. */
  type ClientId = nat
  /** Opaque handles of an `AudioContext` and an `AnalyserNode`. */
  type ContextId = nat
  type AnalyserId = nat

  /** The `audio` part of the `getUserMedia` constraints. */
  datatype Constraints = Constraints(
    deviceId: Option<string>,      // `{ exact: id }`, or `undefined`
    echoCancellation: bool,
    noiseSuppression: bool,
    autoGainControl: bool)

  /** The constraints both the store and the translator console ask for:
      the exact device when one is selected, otherwise the system default;
      echo cancellation and noise suppression on, automatic gain off. */
  function AudioConstraints(selected: Option<string>): (c: Constraints)
    ensures c.deviceId.Some? <==> Truthy(selected)
    ensures c.deviceId.Some? ==> c.deviceId == selected
    ensures c.echoCancellation && c.noiseSuppression && !c.autoGainControl
  {
    Constraints(if Truthy(selected) then selected else None, true, true, false)
  }

  /** A `MediaDeviceInfo`. */
  datatype DeviceInfo = DeviceInfo(deviceId: string, kind: string, deviceLabel: string)  // `label` in the source

  const AudioInputKind := "audioinput"

  /** `deviceList.filter((device) => device.kind === "audioinput")`. */
  function AudioInputs(list: seq<DeviceInfo>): (r: seq<DeviceInfo>)
    ensures |r| <= |list|
    ensures forall d :: d in r ==> d in list && d.kind == AudioInputKind
    ensures forall i :: 0 <= i < |list| && list[i].kind == AudioInputKind ==> list[i] in r
    ensures |r| > 0 ==> exists i :: 0 <= i < |list| && list[i] == r[0] && FirstAudioInput(list, i)
  {
    if |list| == 0 then []
    else if list[0].kind == AudioInputKind then
      assert FirstAudioInput(list, 0);
      [list[0]] + AudioInputs(list[1..])
    else
      var rest := AudioInputs(list[1..]);
      assert forall i :: 1 <= i < |list| ==> list[i] == list[1..][i - 1];
      if |rest| > 0 then
        var j :| 0 <= j < |list[1..]| && list[1..][j] == rest[0] && FirstAudioInput(list[1..], j);
        assert FirstAudioInput(list, j + 1);
        rest
      else rest
  }

  /** Filtering works piecewise: the audio inputs of a joined list are those
      of each part, in order and with repetitions kept. */
  lemma {:induction false} AudioInputsOfConcat(a: seq<DeviceInfo>, b: seq<DeviceInfo>)
    ensures AudioInputs(a + b) == AudioInputs(a) + AudioInputs(b)
    decreases |a|
  {
    if |a| > 0 {
      assert (a + b)[0] == a[0];
      assert (a + b)[1..] == a[1..] + b;
      AudioInputsOfConcat(a[1..], b);
    } else {
      assert a + b == b;
    }
  }

  /** A single device is kept exactly when it is an audio input. */
  lemma AudioInputsOfOne(d: DeviceInfo)
    ensures AudioInputs([d]) == if d.kind == AudioInputKind then [d] else []
  {
    assert [d][1..] == [];
  }

  /** `list[i]` is the first audio input of `list`. */
  predicate FirstAudioInput(list: seq<DeviceInfo>, i: int) {
    && 0 <= i < |list|
    && list[i].kind == AudioInputKind
    && forall j :: 0 <= j < i ==> list[j].kind != AudioInputKind
  }

  /** The device list and the selected device id of a capture console. */
  datatype DevicePicker = DevicePicker(devices: seq<DeviceInfo>, selected: string)

  /** The `getDevices` effect: `enumeration` is what `enumerateDevices`
      resolved to, `None` when it rejected (the error is only logged). The
      list keeps the audio inputs; the first of them becomes the selection
      when nothing is selected yet. */
  function RefreshDevices(p: DevicePicker, enumeration: Option<seq<DeviceInfo>>): (r: DevicePicker)
    ensures enumeration.None? ==> r == p
    ensures enumeration.Some? ==> r.devices == AudioInputs(enumeration.value)
    ensures p.selected != "" ==> r.selected == p.selected
    ensures p.selected == "" && enumeration.Some? ==>
      forall i :: FirstAudioInput(enumeration.value, i) ==> r.selected == enumeration.value[i].deviceId
    ensures r.selected != p.selected ==> exists d :: d in r.devices && d.deviceId == r.selected
  {
    match enumeration
    case None => p
    case Some(list) =>
      var inputs := AudioInputs(list);
      if |inputs| > 0 && p.selected == "" then
        FirstAudioInputUnique(list);
        DevicePicker(inputs, inputs[0].deviceId)
      else DevicePicker(inputs, p.selected)
  }

  lemma FirstAudioInputUnique(list: seq<DeviceInfo>)
    ensures forall i, j :: FirstAudioInput(list, i) && FirstAudioInput(list, j) ==> i == j
  {
  }

  /** The option label: the device label, or "Microfone " and the first
      eight characters of the id when the label is empty. */
  function DeviceLabel(d: DeviceInfo): (s: string)
    ensures d.deviceLabel != "" ==> s == d.deviceLabel
    ensures d.deviceLabel == "" ==>
              StartsWith(s, "Microfone ") && |s| <= |"Microfone "| + 8 && s[|"Microfone "|..] == Take(d.deviceId, 8)
  {
    if d.deviceLabel != "" then d.deviceLabel else "Microfone " + Take(d.deviceId, 8)
  }

  /** The WHIP (publish) endpoint of Flue.live: carries the stream key and
      its write secret, both inserted without encoding. */
  const WhipEndpoint := "https://app.flue.live/live/v1/whip"

  function WhipUrl(key: string, secret: string): (url: string)
    ensures StartsWith(url, WhipEndpoint + "?app=live&stream=")
    ensures url[|WhipEndpoint| + 17..] == key + "&secret=" + secret
  {
    WhipEndpoint + "?" + "app=live&stream=" + key + "&secret=" + secret
  }

  /** The WHEP (playback) endpoint of Flue.live: carries the stream key only,
      inserted without encoding. */
  const WhepEndpoint := "https://whep.flue.live/"

  function WhepUrl(key: string): (url: string)
    ensures StartsWith(url, WhepEndpoint + "?stream=")
    ensures url[|WhepEndpoint| + 8..] == key
  {
    WhepEndpoint + "?" + "stream=" + key
  }

  /** An ASCII tab or newline: the URL parser removes these wherever they
      occur. */
  predicate TabOrNewline(c: char) {
    c == '\t' || c == '\n' || c == '\r'
  }

  /** A C0 control or a space: the URL parser strips these from both ends. */
  predicate C0OrSpace(c: char) {
    c <= ' '
  }

  /** Characters that an unencoded query value does not carry intact: '&'
      ends the parameter, '#' starts the fragment, '+' reads back as a
      space, '%' starts an escape, and tabs and newlines are removed. */
  predicate QueryUnsafe(c: char) {
    c == '&' || c == '#' || c == '+' || c == '%' || TabOrNewline(c)
  }

  /** `s` reads back unchanged when written into a query without encoding,
      unless it ends the URL (see `SafeAtEnd`). */
  predicate QuerySafe(s: string) {
    forall i :: 0 <= i < |s| ==> !QueryUnsafe(s[i])
  }

  /** `s` reads back unchanged when written, unencoded, at the end of a URL:
      it is query-safe and does not end in a character the parser strips. */
  predicate SafeAtEnd(s: string) {
    QuerySafe(s) && (|s| == 0 || !C0OrSpace(s[|s| - 1]))
  }

  predicate TabFree(s: string) {
    forall i :: 0 <= i < |s| ==> !TabOrNewline(s[i])
  }

  /** The URL parser's first steps: strip C0 controls and spaces from the
      start, ... */
  function TrimLeadingC0(s: string): (r: string)
    ensures |r| <= |s| && r == s[|s| - |r|..]
    decreases |s|
  {
    if |s| > 0 && C0OrSpace(s[0]) then TrimLeadingC0(s[1..]) else s
  }

  /** ... and from the end, ... */
  function TrimTrailingC0(s: string): (r: string)
    ensures |r| <= |s| && r == s[..|r|]
    ensures |r| > 0 ==> !C0OrSpace(r[|r| - 1])
    decreases |s|
  {
    if |s| > 0 && C0OrSpace(s[|s| - 1]) then TrimTrailingC0(s[..|s| - 1]) else s
  }

  /** ... then remove every tab and newline. */
  function RemoveTabsAndNewlines(s: string): (r: string)
    ensures |r| <= |s|
    ensures forall i :: 0 <= i < |r| ==> r[i] in s && !TabOrNewline(r[i])
    decreases |s|
  {
    if |s| == 0 then ""
    else
      var rest := RemoveTabsAndNewlines(s[1..]);
      assert forall i :: 0 <= i < |rest| ==> rest[i] in s by {
        assert forall c :: c in s[1..] ==> c in s;
      }
      if TabOrNewline(s[0]) then rest else [s[0]] + rest
  }

  /** The URL as the parser reads it. */
  function CleanUrl(url: string): string {
    RemoveTabsAndNewlines(TrimTrailingC0(TrimLeadingC0(url)))
  }

  /** The value of a hexadecimal digit. */
  function HexDigit(c: char): Option<nat> {
    if '0' <= c <= '9' then Some(c as nat - '0' as nat)
    else if 'a' <= c <= 'f' then Some(c as nat - 'a' as nat + 10)
    else if 'A' <= c <= 'F' then Some(c as nat - 'A' as nat + 10)
    else None
  }

  /** `s` holds nothing that decoding would change. */
  predicate Unescaped(s: string) {
    forall i :: 0 <= i < |s| ==> s[i] != '+' && s[i] != '%'
  }

  /** The ASCII character that a "%hh" escape at the head of `s` names. */
  function EscapedChar(s: string): (c: Option<char>)
    ensures c.Some? ==> |s| >= 3 && s[0] == '%'
  {
    if |s| >= 3 && s[0] == '%' && HexDigit(s[1]).Some? && HexDigit(s[2]).Some?
       && HexDigit(s[1]).value * 16 + HexDigit(s[2]).value < 128
    then Some((HexDigit(s[1]).value * 16 + HexDigit(s[2]).value) as char)
    else None
  }

  /** The form-urlencoded reading of a query name or value: '+' is a space,
      and "%hh" naming an ASCII code is that character; anything else,
      including a '%' that starts no such escape, is kept. */
  function DecodeComponent(s: string): (r: string)
    ensures |r| <= |s|
    decreases |s|
  {
    if |s| == 0 then ""
    else if s[0] == '+' then " " + DecodeComponent(s[1..])
    else if EscapedChar(s).Some? then [EscapedChar(s).value] + DecodeComponent(s[3..])
    else [s[0]] + DecodeComponent(s[1..])
  }

  /** The query of a URL: what follows the first '?', up to the first '#'. */
  function Query(url: string): Option<string> {
    var beforeFragment := url[..IndexOf(url, '#')];
    var k := IndexOf(beforeFragment, '?');
    if k == |beforeFragment| then None else Some(beforeFragment[k + 1..])
  }

  /** A query split at every '&'; no field holds an '&'. */
  function Fields(query: string): (fields: seq<string>)
    ensures |fields| > 0
    ensures forall i :: 0 <= i < |fields| ==> '&' !in fields[i]
    decreases |query|
  {
    var k := IndexOf(query, '&');
    if k == |query| then [query] else [query[..k]] + Fields(query[k + 1..])
  }

  /** The decoded value of the first non-empty field whose decoded name is
      `name`; the name runs to the first '=', and a field without '=' has
      an empty value. */
  function Lookup(fields: seq<string>, name: string): Option<string> {
    if |fields| == 0 then None
    else
      var f := fields[0];
      var k := IndexOf(f, '=');
      if f != "" && DecodeComponent(f[..k]) == name then
        Some(DecodeComponent(if k == |f| then "" else f[k + 1..]))
      else Lookup(fields[1..], name)
  }

  /** The query of a URL as written, read field by field. */
  function ReadQuery(url: string, name: string): Option<string> {
    match Query(url)
    case None => None
    case Some(q) => Lookup(Fields(q), name)
  }

  /** `new URL(url).searchParams.get(name)`: the query of the cleaned URL,
      read field by field. */
  function Param(url: string, name: string): Option<string> {
    ReadQuery(CleanUrl(url), name)
  }

  /** What a reader of the playback URL takes for the stream key. */
  function WhepKey(url: string): Option<string> {
    Param(url, "stream")
  }

  /** What a reader of the publish URL takes for the stream key and the
      secret. */
  function WhipCredentials(url: string): Option<(string, string)> {
    var key, secret := Param(url, "stream"), Param(url, "secret");
    if key.Some? && secret.Some? then Some((key.value, secret.value)) else None
  }

  /** The first occurrence of `c` in `a + [c] + b` is the one after `a`
      when `a` has none. */
  lemma IndexOfSplit(a: string, c: char, b: string)
    requires c !in a
    ensures IndexOf(a + [c] + b, c) == |a|
  {
    var s := a + [c] + b;
    assert s[|a|] == c;
    assert forall j :: 0 <= j < |a| ==> s[j] == a[j];
  }

  lemma IndexOfAbsent(s: string, c: char)
    requires c !in s
    ensures IndexOf(s, c) == |s|
  {
    assert forall j :: 0 <= j < |s| ==> s[j] in s;
  }

  /** Joining two texts with a character other than `c` adds no `c`. */
  lemma JoinLacks(x: string, sep: char, y: string, c: char)
    requires c !in x && c !in y && sep != c
    ensures c !in x + [sep] + y
  {
    var s := x + [sep] + y;
    assert forall i :: 0 <= i < |x| ==> s[i] == x[i];
    assert forall i :: 0 <= i < |y| ==> s[|x| + 1 + i] == y[i];
  }

  /** Trimming the end stops at the last character of a plain prefix. */
  lemma {:induction false} TrimTrailingAfter(x: string, y: string)
    requires |x| > 0 && !C0OrSpace(x[|x| - 1])
    ensures TrimTrailingC0(x + y) == x + TrimTrailingC0(y)
    decreases |y|
  {
    var s := x + y;
    if |y| == 0 {
      assert s == x;
      assert x + TrimTrailingC0(y) == x;
    } else if C0OrSpace(y[|y| - 1]) {
      assert s[|s| - 1] == y[|y| - 1];
      assert s[..|s| - 1] == x + y[..|y| - 1];
      TrimTrailingAfter(x, y[..|y| - 1]);
    } else {
      assert s[|s| - 1] == y[|y| - 1];
    }
  }

  /** Removal passes a prefix without tabs or newlines through. */
  lemma {:induction false} RemoveAfterTabFree(x: string, z: string)
    requires TabFree(x)
    ensures RemoveTabsAndNewlines(x + z) == x + RemoveTabsAndNewlines(z)
    decreases |x|
  {
    if |x| > 0 {
      var rest := x[1..];
      assert TabFree(rest) by {
        assert forall i :: 0 <= i < |rest| ==> rest[i] == x[i + 1];
      }
      assert (x + z)[0] == x[0] && !TabOrNewline(x[0]);
      assert (x + z)[1..] == rest + z;
      RemoveAfterTabFree(rest, z);
      assert x + RemoveTabsAndNewlines(z) == [x[0]] + (rest + RemoveTabsAndNewlines(z));
    } else {
      assert x + z == z;
      assert x + RemoveTabsAndNewlines(z) == RemoveTabsAndNewlines(z);
    }
  }

  /** Cleaning a URL that starts with a plain, tab-free part `x` ending in
      a plain character touches only what follows `x`. */
  lemma CleanUrlAfter(x: string, y: string)
    requires |x| > 0 && !C0OrSpace(x[0]) && !C0OrSpace(x[|x| - 1]) && TabFree(x)
    ensures CleanUrl(x + y) == x + RemoveTabsAndNewlines(TrimTrailingC0(y))
  {
    assert (x + y)[0] == x[0];
    assert TrimLeadingC0(x + y) == x + y;
    TrimTrailingAfter(x, y);
    RemoveAfterTabFree(x, TrimTrailingC0(y));
  }

  /** A plain, tab-free URL is read as written. */
  lemma CleanUrlKeeps(url: string)
    requires |url| > 0 && !C0OrSpace(url[0]) && !C0OrSpace(url[|url| - 1]) && TabFree(url)
    ensures CleanUrl(url) == url
  {
    CleanUrlAfter(url, "");
    assert url + "" == url;
  }

  lemma SafeIsTabFree(s: string)
    requires QuerySafe(s)
    ensures TabFree(s)
  {
  }

  lemma TabFreeJoin(x: string, y: string)
    requires TabFree(x) && TabFree(y)
    ensures TabFree(x + y)
  {
    assert forall i :: 0 <= i < |y| ==> (x + y)[|x| + i] == y[i];
  }

  /** The query of an endpoint with a query and no fragment. */
  lemma QueryOfUrl(endpoint: string, query: string)
    requires '?' !in endpoint && '#' !in endpoint && '#' !in query
    ensures Query(endpoint + "?" + query) == Some(query)
  {
    var url := endpoint + "?" + query;
    assert '#' !in url by {
      forall i | 0 <= i < |url|
        ensures url[i] != '#'
      {
        if i < |endpoint| { assert url[i] == endpoint[i]; }
        else if i > |endpoint| { assert url[i] == query[i - |endpoint| - 1]; }
      }
    }
    IndexOfAbsent(url, '#');
    assert url[..|url|] == url;
    IndexOfSplit(endpoint, '?', query);
    assert url[|endpoint| + 1..] == query;
  }

  /** A fragment cuts the query short. */
  lemma QueryOfUrlWithFragment(endpoint: string, query: string, fragment: string)
    requires '?' !in endpoint && '#' !in endpoint && '#' !in query
    ensures Query(endpoint + "?" + query + "#" + fragment) == Some(query)
  {
    var url := endpoint + "?" + query + "#" + fragment;
    var before := endpoint + "?" + query;
    assert '#' !in before by {
      forall i | 0 <= i < |before|
        ensures before[i] != '#'
      {
        if i < |endpoint| { assert before[i] == endpoint[i]; }
        else if i > |endpoint| { assert before[i] == query[i - |endpoint| - 1]; }
      }
    }
    assert url == before + ['#'] + fragment;
    IndexOfSplit(before, '#', fragment);
    assert url[..|before|] == before;
    QueryOfUrl(endpoint, query);
  }

  lemma FieldsOfOne(a: string)
    requires '&' !in a
    ensures Fields(a) == [a]
  {
    IndexOfAbsent(a, '&');
  }

  lemma FieldsOfJoin(a: string, b: string)
    requires '&' !in a
    ensures Fields(a + "&" + b) == [a] + Fields(b)
  {
    IndexOfSplit(a, '&', b);
    var q := a + "&" + b;
    assert q[..|a|] == a;
    assert q[|a| + 1..] == b;
  }

  /** The field `name=value` read by name gives the value back. */
  lemma LookupField(name: string, value: string, rest: seq<string>)
    requires name != "" && QuerySafe(name) && '=' !in name && QuerySafe(value)
    ensures Lookup([name + "=" + value] + rest, name) == Some(value)
  {
    var f := name + "=" + value;
    IndexOfSplit(name, '=', value);
    assert f[..|name|] == name;
    assert f[|name| + 1..] == value;
    assert ([f] + rest)[0] == f;
    SafeIsUnescaped(name);
    DecodeUnescaped(name);
    SafeIsUnescaped(value);
    DecodeUnescaped(value);
  }

  /** A field with another name is passed over. */
  lemma LookupSkips(field: string, value: string, rest: seq<string>, name: string)
    requires field != name && field != "" && QuerySafe(field) && '=' !in field
    ensures Lookup([field + "=" + value] + rest, name) == Lookup(rest, name)
  {
    var f := field + "=" + value;
    IndexOfSplit(field, '=', value);
    assert f[..|field|] == field;
    assert ([f] + rest)[1..] == rest;
    SafeIsUnescaped(field);
    DecodeUnescaped(field);
  }

  /** A field of safe text is safe, and safe text holds no separator. */
  lemma SafeField(name: string, value: string)
    requires QuerySafe(name) && QuerySafe(value)
    ensures QuerySafe(name + "=" + value)
    ensures '&' !in name + "=" + value && '#' !in name + "=" + value
  {
    var f := name + "=" + value;
    assert forall i :: 0 <= i < |name| ==> f[i] == name[i];
    assert forall i :: 0 <= i < |value| ==> f[|name| + 1 + i] == value[i];
    assert forall i :: 0 <= i < |f| ==> f[i] in f;
  }

  /** A plain, tab-free end of a URL survives cleaning unchanged. */
  lemma TrimSafeAtEnd(s: string)
    requires SafeAtEnd(s)
    ensures TrimTrailingC0(s) == s && RemoveTabsAndNewlines(s) == s
  {
    RemoveAfterTabFree(s, "");
    assert s + "" == s;
  }

  /** The part of the playback URL before the key is plain and tab-free. */
  lemma WhepPrefixPlain()
    ensures var p := WhepEndpoint + "?" + "stream=";
      |p| > 0 && !C0OrSpace(p[0]) && !C0OrSpace(p[|p| - 1]) && TabFree(p)
  {
  }

  /** Cleaning the playback URL touches only the key. */
  lemma WhepUrlCleaned(key: string)
    ensures CleanUrl(WhepUrl(key)) == WhepEndpoint + "?" + "stream=" + RemoveTabsAndNewlines(TrimTrailingC0(key))
  {
    WhepPrefixPlain();
    CleanUrlAfter(WhepEndpoint + "?" + "stream=", key);
  }

  /** The query of the playback URL as written holds the key. */
  lemma WhepQueryRead(key: string)
    requires QuerySafe(key)
    ensures ReadQuery(WhepUrl(key), "stream") == Some(key)
  {
    var f := "stream=" + key;
    assert f == "stream" + "=" + key;
    SafeField("stream", key);
    assert WhepUrl(key) == WhepEndpoint + "?" + f;
    QueryOfUrl(WhepEndpoint, f);
    FieldsOfOne(f);
    LookupField("stream", key, []);
    assert [f] + [] == [f];
  }

  /** The playback URL gives back the stream key it was built from, for
      every key that the unencoded query carries intact. */
  lemma WhepUrlRoundTrip(key: string)
    requires SafeAtEnd(key)
    ensures WhepKey(WhepUrl(key)) == Some(key)
  {
    WhepUrlCleaned(key);
    TrimSafeAtEnd(key);
    WhepQueryRead(key);
  }

  /** The query of a publish URL holds no '#'. */
  lemma WhipQueryLacksHash(key: string, secret: string)
    requires QuerySafe(key) && QuerySafe(secret)
    ensures '#' !in "app=live" + "&" + (("stream=" + key) + "&" + ("secret=" + secret))
  {
    var a, k, s := "app=live", "stream=" + key, "secret=" + secret;
    assert k == "stream" + "=" + key;
    assert s == "secret" + "=" + secret;
    SafeField("stream", key);
    SafeField("secret", secret);
    JoinLacks(k, '&', s, '#');
    assert "&" == ['&'];
    JoinLacks(a, '&', k + "&" + s, '#');
  }

  /** The query of a publish URL. */
  lemma WhipUrlQuery(key: string, secret: string)
    requires QuerySafe(key) && QuerySafe(secret)
    ensures Query(WhipUrl(key, secret)) == Some("app=live" + "&" + (("stream=" + key) + "&" + ("secret=" + secret)))
  {
    var q := "app=live" + "&" + (("stream=" + key) + "&" + ("secret=" + secret));
    assert WhipUrl(key, secret) == WhipEndpoint + "?" + q;
    WhipQueryLacksHash(key, secret);
    QueryOfUrl(WhipEndpoint, q);
  }

  /** The fields of that query: the application, the key and the secret. */
  lemma WhipQueryFields(key: string, secret: string)
    requires QuerySafe(key) && QuerySafe(secret)
    ensures Fields("app=live" + "&" + (("stream=" + key) + "&" + ("secret=" + secret)))
              == ["app=live", "stream=" + key, "secret=" + secret]
  {
    var a, k, s := "app=live", "stream=" + key, "secret=" + secret;
    assert k == "stream" + "=" + key;
    assert s == "secret" + "=" + secret;
    SafeField("stream", key);
    SafeField("secret", secret);
    FieldsOfJoin(a, k + "&" + s);
    FieldsOfJoin(k, s);
    FieldsOfOne(s);
  }

  /** Reading the key from the publish fields passes over the application. */
  lemma WhipKeyLookup(key: string, secret: string)
    requires QuerySafe(key) && QuerySafe(secret)
    ensures Lookup(["app=live", "stream=" + key, "secret=" + secret], "stream") == Some(key)
  {
    var k, s := "stream=" + key, "secret=" + secret;
    assert k == "stream" + "=" + key;
    assert "app=live" == "app" + "=" + "live";
    LookupSkips("app", "live", [k, s], "stream");
    LookupField("stream", key, [s]);
  }

  lemma SkipAppField(key: string, secret: string)
    ensures Lookup(["app=live", "stream=" + key, "secret=" + secret], "secret")
              == Lookup(["stream=" + key, "secret=" + secret], "secret")
  {
    assert "app=live" == "app" + "=" + "live";
    LookupSkips("app", "live", ["stream=" + key, "secret=" + secret], "secret");
  }

  lemma SkipStreamField(key: string, secret: string)
    requires QuerySafe(key)
    ensures Lookup(["stream=" + key, "secret=" + secret], "secret") == Lookup(["secret=" + secret], "secret")
  {
    assert "stream=" + key == "stream" + "=" + key;
    LookupSkips("stream", key, ["secret=" + secret], "secret");
  }

  lemma SecretLookup(secret: string)
    requires QuerySafe(secret)
    ensures Lookup(["secret=" + secret], "secret") == Some(secret)
  {
    var s := "secret=" + secret;
    assert s == "secret" + "=" + secret;
    LookupField("secret", secret, []);
    assert [s] + [] == [s];
  }

  /** The query of the publish URL as written holds the key and the
      secret. */
  lemma WhipQueryRead(key: string, secret: string)
    requires QuerySafe(key) && QuerySafe(secret)
    ensures ReadQuery(WhipUrl(key, secret), "stream") == Some(key)
    ensures ReadQuery(WhipUrl(key, secret), "secret") == Some(secret)
  {
    WhipUrlQuery(key, secret);
    WhipQueryFields(key, secret);
    WhipKeyLookup(key, secret);
    SkipAppField(key, secret);
    SkipStreamField(key, secret);
    SecretLookup(secret);
  }

  /** Cleaning the publish URL of a safe key touches only the secret. */
  lemma WhipUrlCleaned(key: string, secret: string)
    requires QuerySafe(key)
    ensures CleanUrl(WhipUrl(key, secret))
              == WhipEndpoint + "?" + "app=live&stream=" + key + "&secret=" + RemoveTabsAndNewlines(TrimTrailingC0(secret))
  {
    var p := WhipEndpoint + "?" + "app=live&stream=";
    var x := p + key + "&secret=";
    assert TabFree(p) && TabFree("&secret=");
    SafeIsTabFree(key);
    TabFreeJoin(p, key);
    TabFreeJoin(p + key, "&secret=");
    assert x[0] == p[0] && x[|x| - 1] == '=';
    CleanUrlAfter(x, secret);
  }

  /** The publish URL gives back exactly the key and the secret it was built
      from, whenever both are carried intact by the unencoded query. */
  lemma WhipUrlRoundTrip(key: string, secret: string)
    requires QuerySafe(key) && SafeAtEnd(secret)
    ensures WhipCredentials(WhipUrl(key, secret)) == Some((key, secret))
  {
    WhipUrlCleaned(key, secret);
    TrimSafeAtEnd(secret);
    WhipQueryRead(key, secret);
  }

  /** Decoding leaves a prefix without '+' or '%' as it is. */
  lemma {:induction false} DecodePlainPrefix(a: string, t: string)
    requires Unescaped(a)
    ensures DecodeComponent(a + t) == a + DecodeComponent(t)
    decreases |a|
  {
    if |a| > 0 {
      var rest := a[1..];
      assert Unescaped(rest) by {
        assert forall i :: 0 <= i < |rest| ==> rest[i] == a[i + 1];
      }
      assert a[0] != '+' && a[0] != '%';
      assert a + t == [a[0]] + (rest + t);
      DecodeHead(a[0], rest + t);
      DecodePlainPrefix(rest, t);
      assert a + DecodeComponent(t) == [a[0]] + (rest + DecodeComponent(t));
    } else {
      assert a + t == t;
      assert a + DecodeComponent(t) == DecodeComponent(t);
    }
  }

  /** Decoding leaves text without '+' or '%' unchanged. */
  lemma DecodeUnescaped(s: string)
    requires Unescaped(s)
    ensures DecodeComponent(s) == s
  {
    DecodePlainPrefix(s, "");
    assert s + "" == s;
  }

  lemma SafeIsUnescaped(s: string)
    requires QuerySafe(s)
    ensures Unescaped(s)
  {
  }

  /** Decoding passes a plain character at the head through. */
  lemma DecodeHead(c: char, r: string)
    requires c != '+' && c != '%'
    ensures DecodeComponent([c] + r) == [c] + DecodeComponent(r)
  {
    var s := [c] + r;
    assert s[0] == c;
    assert s[1..] == r;
  }

  /** The playback URL of a safe key followed by one plain character is
      plain and tab-free up to that character. */
  lemma WhepUrlThen(a: string, c: char)
    requires QuerySafe(a) && !TabOrNewline(c) && !C0OrSpace(c)
    ensures var x := WhepUrl(a) + [c];
      |x| > 0 && !C0OrSpace(x[0]) && !C0OrSpace(x[|x| - 1]) && TabFree(x)
  {
    var p := WhepEndpoint + "?" + "stream=";
    WhepPrefixPlain();
    SafeIsTabFree(a);
    TabFreeJoin(p, a);
    TabFreeJoin(p + a, [c]);
    assert (WhepUrl(a) + [c])[0] == p[0];
  }

  /** Cleaning keeps safe text safe, and then only trims its end. */
  lemma CleanedSafe(b: string)
    requires QuerySafe(b)
    ensures QuerySafe(TrimTrailingC0(b))
    ensures RemoveTabsAndNewlines(TrimTrailingC0(b)) == TrimTrailingC0(b)
  {
    var t := TrimTrailingC0(b);
    assert forall i :: 0 <= i < |t| ==> t[i] == b[i];
    SafeIsTabFree(t);
    RemoveAfterTabFree(t, "");
    assert t + "" == t;
  }

  /** The query as written, cut at an '&' after the key. */
  lemma AmpersandRead(a: string, b: string)
    requires QuerySafe(a) && QuerySafe(b)
    ensures ReadQuery(WhepUrl(a) + "&" + b, "stream") == Some(a)
  {
    var f := "stream=" + a;
    assert f == "stream" + "=" + a;
    SafeField("stream", a);
    SafeField("b", b);
    assert '#' !in b by {
      assert forall i :: 0 <= i < |b| ==> ("b" + "=" + b)[2 + i] == b[i];
    }
    assert WhepUrl(a) + "&" + b == WhepEndpoint + "?" + (f + "&" + b);
    JoinLacks(f, '&', b, '#');
    QueryOfUrl(WhepEndpoint, f + "&" + b);
    FieldsOfJoin(f, b);
    LookupField("stream", a, Fields(b));
  }

  /** An '&' in a key cuts it short at the '&'. */
  lemma AmpersandCutsKey(a: string, b: string)
    requires QuerySafe(a) && QuerySafe(b)
    ensures WhepKey(WhepUrl(a + "&" + b)) == Some(a)
  {
    assert WhepUrl(a + "&" + b) == (WhepUrl(a) + "&") + b;
    WhepUrlThen(a, '&');
    CleanUrlAfter(WhepUrl(a) + "&", b);
    CleanedSafe(b);
    AmpersandRead(a, TrimTrailingC0(b));
  }

  /** The query as written, cut at a '#' after the key. */
  lemma HashRead(a: string, b: string)
    requires QuerySafe(a)
    ensures ReadQuery(WhepUrl(a) + "#" + b, "stream") == Some(a)
  {
    var f := "stream=" + a;
    assert f == "stream" + "=" + a;
    SafeField("stream", a);
    assert WhepUrl(a) + "#" + b == WhepEndpoint + "?" + f + "#" + b;
    QueryOfUrlWithFragment(WhepEndpoint, f, b);
    FieldsOfOne(f);
    LookupField("stream", a, []);
    assert [f] + [] == [f];
  }

  /** A '#' in a key starts the fragment and cuts the key short. */
  lemma HashCutsKey(a: string, b: string)
    requires QuerySafe(a)
    ensures WhepKey(WhepUrl(a + "#" + b)) == Some(a)
  {
    assert WhepUrl(a + "#" + b) == (WhepUrl(a) + "#") + b;
    WhepUrlThen(a, '#');
    CleanUrlAfter(WhepUrl(a) + "#", b);
    HashRead(a, RemoveTabsAndNewlines(TrimTrailingC0(b)));
  }

  /** Spaces and control characters at the end of a key are trimmed off
      with the end of the URL. */
  lemma TrailingSpaceDropped(k: string)
    requires SafeAtEnd(k)
    ensures WhepKey(WhepUrl(k + " ")) == Some(k)
  {
    WhepUrlCleaned(k + " ");
    assert (k + " ")[..|k|] == k;
    TrimSafeAtEnd(k);
    WhepQueryRead(k);
  }

  /** A tab inside a key is removed with the URL's tabs and newlines. */
  lemma TabDropped(a: string, b: string)
    requires QuerySafe(a) && SafeAtEnd(b) && |b| > 0
    ensures WhepKey(WhepUrl(a + "\t" + b)) == Some(a + b)
  {
    var v := a + "\t" + b;
    WhepUrlCleaned(v);
    assert v[|v| - 1] == b[|b| - 1];
    assert TrimTrailingC0(v) == v;
    SafeIsTabFree(a);
    assert v == a + ("\t" + b);
    RemoveAfterTabFree(a, "\t" + b);
    assert ("\t" + b)[1..] == b;
    TrimSafeAtEnd(b);
    SafeJoin(a, b);
    WhepQueryRead(a + b);
  }

  /** The playback URL of a joined key is the URL of its first part
      followed by the rest. */
  lemma WhepUrlJoin(a: string, sep: string, b: string)
    ensures WhepUrl(a + sep + b) == WhepUrl(a) + sep + b
  {
  }

  /** Two safe texts joined are safe. */
  lemma SafeJoin(a: string, b: string)
    requires QuerySafe(a) && QuerySafe(b)
    ensures QuerySafe(a + b)
  {
    assert forall i :: 0 <= i < |b| ==> (a + b)[|a| + i] == b[i];
  }

  /** Two safe parts joined by a '+' hold no separator. */
  lemma PlusJoinHasNoSeparator(a: string, b: string)
    requires QuerySafe(a) && QuerySafe(b)
    ensures '#' !in "stream=" + (a + "+" + b) && '&' !in "stream=" + (a + "+" + b)
  {
    var f := "stream=" + (a + "+" + b);
    assert forall i :: 0 <= i < |f| ==> f[i] in f;
    assert forall i :: 0 <= i < |a| ==> f[7 + i] == a[i];
    assert forall i :: 0 <= i < |b| ==> f[8 + |a| + i] == b[i];
    assert forall i :: 0 <= i < |f| ==> f[i] != '#' && f[i] != '&' by {
      forall i | 0 <= i < |f|
        ensures f[i] != '#' && f[i] != '&'
      {
        if 7 <= i < 7 + |a| { assert f[i] == a[i - 7]; }
        else if 8 + |a| <= i { assert f[i] == b[i - 8 - |a|]; }
      }
    }
  }

  /** Decoding turns the '+' between two safe parts into a space. */
  lemma DecodePlusJoin(a: string, b: string)
    requires QuerySafe(a) && QuerySafe(b)
    ensures DecodeComponent(a + "+" + b) == a + " " + b
  {
    assert a + "+" + b == a + ("+" + b);
    SafeIsUnescaped(a);
    SafeIsUnescaped(b);
    DecodePlainPrefix(a, "+" + b);
    assert ("+" + b)[1..] == b;
    DecodeUnescaped(b);
  }

  /** The query as written, with a '+' inside the key. */
  lemma PlusRead(a: string, b: string)
    requires QuerySafe(a) && QuerySafe(b)
    ensures ReadQuery(WhepUrl(a + "+" + b), "stream") == Some(a + " " + b)
  {
    var v := a + "+" + b;
    var f := "stream=" + v;
    PlusJoinHasNoSeparator(a, b);
    assert WhepUrl(v) == WhepEndpoint + "?" + f;
    QueryOfUrl(WhepEndpoint, f);
    FieldsOfOne(f);
    StreamFieldValue(v);
    DecodePlusJoin(a, b);
  }

  /** A '+' in a key reads back as a space; what follows it loses its
      trailing spaces and control characters. */
  lemma PlusBecomesSpace(a: string, b: string)
    requires QuerySafe(a) && QuerySafe(b)
    ensures WhepKey(WhepUrl(a + "+" + b)) == Some(a + " " + TrimTrailingC0(b))
  {
    var t := TrimTrailingC0(b);
    assert WhepUrl(a + "+" + b) == (WhepUrl(a) + "+") + b;
    WhepUrlThen(a, '+');
    CleanUrlAfter(WhepUrl(a) + "+", b);
    CleanedSafe(b);
    WhepUrlJoin(a, "+", t);
    PlusRead(a, t);
  }

  /** The single field `stream=v` read by name gives the decoded value. */
  lemma StreamFieldValue(v: string)
    ensures Lookup(["stream=" + v], "stream") == Some(DecodeComponent(v))
  {
    var f := "stream=" + v;
    assert f == "stream" + "=" + v;
    IndexOfSplit("stream", '=', v);
    assert f[..6] == "stream";
    assert f[7..] == v;
    DecodeUnescaped("stream");
  }

  /** The configuration handed to the streaming client; its type is always
      "flue" and its mode "audio-only". */
  datatype StreamConfig = StreamConfig(key: string, secret: Option<string>, url: string)

  /** The external calls the audio core makes, in the order it makes them. */
  datatype Call =
    | CaptureMedia(client: ClientId, constraints: Constraints)   // client.captureMedia
    | GetUserMedia(constraints: Constraints)                    // navigator.mediaDevices.getUserMedia
    | StopTracks(stream: StreamId)                              // every track's stop()
    | Disconnect(client: ClientId)                              // client.disconnect()
    | Publish(client: ClientId, config: StreamConfig, stream: StreamId)  // publishToFlueStream
    | Subscribe(client: ClientId, config: StreamConfig)         // connectToFlueStream
    | CloseContext(context: ContextId)                          // audioContext.close()
    | PlayOutput(stream: StreamId, volume: real)                // srcObject, volume, play()
    | DetachOutput                                              // srcObject = null
}

=== FILE: numbers.dfy ===
/** The two JavaScript number conversions the event form relies on:
    `Number.parseInt(s)` (no radix argument) and `n.toString()` on an
    integer. Numbers are unbounded here; the loss of precision beyond 2^53
    and the exponent notation of `toString` from 1e21 upwards are not
    modelled. */
module Numbers {
  import opened Common

  /** A `parseInt` result: `NaN`, or an integer. */
  datatype Parsed = NaN | Num(value: int)

  /** The white space `parseInt` skips before the number: the ECMAScript
      WhiteSpace and LineTerminator characters. */
  predicate IsJsSpace(c: char) {
    || c == ' ' || c == '\t' || c == '\n' || c == '\r'
    || c == '\U{B}' || c == '\U{C}' || c == '\U{A0}' || c == '\U{1680}'
    || ('\U{2000}' <= c <= '\U{200A}')
    || c == '\U{2028}' || c == '\U{2029}' || c == '\U{202F}'
    || c == '\U{205F}' || c == '\U{3000}' || c == '\U{FEFF}'
  }

  function TrimStart(s: string): (r: string)
    ensures |r| <= |s| && r == s[|s| - |r|..]
    ensures |r| > 0 ==> !IsJsSpace(r[0])
  {
    if |s| > 0 && IsJsSpace(s[0]) then TrimStart(s[1..]) else s
  }

  /** The value of `c` as a digit in radix 36, or 36 if it is not one. */
  function DigitValue(c: char): (d: nat)
    ensures d <= 36
  {
    if '0' <= c <= '9' then c as int - '0' as int
    else if 'a' <= c <= 'z' then c as int - 'a' as int + 10
    else if 'A' <= c <= 'Z' then c as int - 'A' as int + 10
    else 36
  }

  predicate IsDigit(c: char, radix: nat) {
    DigitValue(c) < radix
  }

  /** The longest prefix of `s` made of digits in `radix`. */
  function DigitPrefix(s: string, radix: nat): (r: string)
    ensures StartsWith(s, r)
    ensures forall i :: 0 <= i < |r| ==> IsDigit(r[i], radix)
    ensures |r| < |s| ==> !IsDigit(s[|r|], radix)
  {
    if |s| > 0 && IsDigit(s[0], radix) then [s[0]] + DigitPrefix(s[1..], radix) else []
  }

  /** The value of a digit string, most significant digit first. */
  function DigitsValue(ds: string, radix: nat): nat
    requires forall i :: 0 <= i < |ds| ==> IsDigit(ds[i], radix)
  {
    if |ds| == 0 then 0
    else DigitsValue(ds[..|ds| - 1], radix) * radix + DigitValue(ds[|ds| - 1])
  }

  predicate HasHexPrefix(u: string) {
    |u| >= 2 && u[0] == '0' && (u[1] == 'x' || u[1] == 'X')
  }

  /** The digits after the sign: a `0x`/`0X` prefix selects radix 16 (radix
      10 otherwise), then the longest run of digits is read; no digit at all
      gives `NaN`. */
  function ParseUnsigned(u: string): (r: Parsed)
    ensures r.Num? ==> r.value >= 0
  {
    var radix := if HasHexPrefix(u) then 16 else 10;
    var body := if radix == 16 then u[2..] else u;
    var digits := DigitPrefix(body, radix);
    if |digits| == 0 then NaN
    else Num(DigitsValue(digits, radix))
  }

  function Negate(p: Parsed): Parsed {
    match p
    case NaN => NaN
    case Num(v) => Num(-v)
  }

  /** `Number.parseInt(s)`: skip leading white space, read an optional
      sign, then the unsigned part. */
  function ParseInt(s: string): (r: Parsed)
    ensures TrimStart(s) == "" ==> r.NaN?
    ensures |TrimStart(s)| > 0 && !IsDigit(TrimStart(s)[0], 10) && TrimStart(s)[0] != '-' && TrimStart(s)[0] != '+' ==> r.NaN?
    ensures r.Num? && r.value < 0 ==> |TrimStart(s)| > 0 && TrimStart(s)[0] == '-'
  {
    var t := TrimStart(s);
    if |t| > 0 && t[0] == '-' then Negate(ParseUnsigned(t[1..]))
    else if |t| > 0 && t[0] == '+' then ParseUnsigned(t[1..])
    else
      NoLeadingDigitIsNaN(t);
      ParseUnsigned(t)
  }

  /** Without a leading digit there is nothing to read. */
  lemma NoLeadingDigitIsNaN(u: string)
    ensures |u| == 0 || !IsDigit(u[0], 10) ==> ParseUnsigned(u).NaN?
  {
    if |u| > 0 && !IsDigit(u[0], 10) {
      assert IsDigit('0', 10);
      assert !HasHexPrefix(u);
      assert DigitPrefix(u, 10) == [];
    }
  }

  function DecimalDigit(d: nat): (c: char)
    requires d < 10
    ensures DigitValue(c) == d
  {
    ('0' as int + d) as char
  }

  /** `n.toString()` for a natural number: its decimal digits. */
  function NatToString(n: nat): (s: string)
    decreases n
  {
    if n < 10 then [DecimalDigit(n)] else NatToString(n / 10) + [DecimalDigit(n % 10)]
  }

  /** `n.toString()` for an integer. */
  function IntToString(n: int): (s: string)
    ensures |s| > 0
    ensures s[0] == '-' <==> n < 0
  {
    assert NatToString(if n < 0 then -n else n)[0] != '-' by {
      NatToStringDigits(if n < 0 then -n else n);
    }
    if n < 0 then "-" + NatToString(-n) else NatToString(n)
  }

  /** The decimal form is a non-empty digit string with no leading zero
      (other than "0" itself) whose value is `n`. */
  lemma {:induction false} NatToStringDigits(n: nat)
    ensures |NatToString(n)| > 0
    ensures forall i :: 0 <= i < |NatToString(n)| ==> IsDigit(NatToString(n)[i], 10)
    ensures NatToString(n)[0] == '0' ==> n == 0
    ensures DigitsValue(NatToString(n), 10) == n
    decreases n
  {
    if n >= 10 {
      NatToStringDigits(n / 10);
      var s := NatToString(n);
      assert s[..|s| - 1] == NatToString(n / 10);
      assert s[0] == NatToString(n / 10)[0];
    }
  }

  /** A digit string followed by a non-digit is read back in full. */
  lemma {:induction false} DigitPrefixOfDigits(ds: string, rest: string, radix: nat)
    requires forall i :: 0 <= i < |ds| ==> IsDigit(ds[i], radix)
    requires |rest| == 0 || !IsDigit(rest[0], radix)
    ensures DigitPrefix(ds + rest, radix) == ds
  {
    if |ds| > 0 {
      assert (ds + rest)[1..] == ds[1..] + rest;
      DigitPrefixOfDigits(ds[1..], rest, radix);
    }
  }

  /** A decimal string without a leading zero, followed by a non-digit,
      reads back as its value. */
  lemma ParseUnsignedOfNatString(m: nat, rest: string)
    requires |rest| == 0 || (!IsDigit(rest[0], 10) && rest[0] != 'x' && rest[0] != 'X')
    ensures ParseUnsigned(NatToString(m) + rest) == Num(m)
  {
    var ds := NatToString(m);
    NatToStringDigits(m);
    DigitPrefixOfDigits(ds, rest, 10);
    var u := ds + rest;
    assert !HasHexPrefix(u) by {
      if |ds| >= 2 {
        assert u[1] == ds[1] && IsDigit(ds[1], 10);
      } else {
        assert |rest| > 0 ==> u[1] == rest[0];
      }
    }
  }

  /** Nothing is trimmed from a string that starts with a sign or a digit. */
  lemma TrimStartKeeps(s: string)
    requires |s| > 0 && (s[0] == '-' || IsDigit(s[0], 10))
    ensures TrimStart(s) == s
  {
    assert !IsJsSpace(s[0]);
  }

  /** A string that starts with a digit is read unsigned. */
  lemma ParseIntOfDigitFirst(u: string)
    requires |u| > 0 && IsDigit(u[0], 10)
    ensures ParseInt(u) == ParseUnsigned(u)
  {
    TrimStartKeeps(u);
  }

  /** A string that starts with '-' is read as the negated unsigned rest. */
  lemma ParseIntOfMinus(u: string)
    ensures ParseInt("-" + u) == Negate(ParseUnsigned(u))
  {
    var s := "-" + u;
    TrimStartKeeps(s);
    assert s[1..] == u;
  }

  /** `parseInt` undoes `toString` on every integer, also when the number is
      followed by text that cannot continue it ("12 seats" reads as 12). */
  lemma ParseIntOfIntToString(n: int, rest: string)
    requires |rest| == 0 || (!IsDigit(rest[0], 10) && rest[0] != 'x' && rest[0] != 'X')
    ensures ParseInt(IntToString(n) + rest) == Num(n)
  {
    var m: nat := if n < 0 then -n else n;
    var u := NatToString(m) + rest;
    ParseUnsignedOfNatString(m, rest);
    if n < 0 {
      assert IntToString(n) + rest == "-" + u;
      ParseIntOfMinus(u);
    } else {
      NatToStringDigits(m);
      assert IntToString(n) + rest == u;
      assert u[0] == NatToString(m)[0];
      ParseIntOfDigitFirst(u);
    }
  }
}

=== FILE: persistent_controller.dfy ===
/** The admin's persistent capture panel (`PersistentAudioController`): its
    handlers sequence store actions with the persistence flag, and its view
    decides which controls exist and how the level is drawn. The event key
    and secret are the panel's props: the stream key and Flue secret of the
    event selected for streaming, when there is one. */
module PersistentController {
  import opened Common
  import opened Media
  import opened AudioStore

  /** What a handler did to the store, the calls it made, and the alert it
      raised. */
  datatype Outcome = Outcome(store: State, calls: seq<Call>, alert: Option<string>)

  const CaptureAlert := "Erro ao iniciar captura de áudio. Verifique as permissões."
  const NoEventAlert := "Selecione um evento primeiro"
  const StreamingAlert := "Erro ao iniciar transmissão"

  /** `handleStartCapture`: captures from the selected device, then turns
      persistence on; when the capture throws, alerts and leaves the store,
      the flag included, as it was. A capture that resolves without a stream
      still turns persistence on. */
  function HandleStartCapture(s: State, selectedDevice: string, newClient: ClientId, result: CaptureResult): (r: Outcome)
    ensures r.calls == [CaptureMedia(newClient, AudioConstraints(Some(selectedDevice)))]
    ensures result.CaptureFailed? <==> r.alert.Some?
    ensures result.CaptureFailed? ==> r.store == s && r.alert == Some(CaptureAlert)
    ensures result.Captured? ==>
              r.store.isCapturing && r.store.isPersistent && r.store.mediaStream == Some(result.stream)
              && r.store.webRTCClient == Some(newClient)
    ensures result.Captured? ==>
              r.store == s.(isCapturing := true, mediaStream := Some(result.stream), webRTCClient := Some(newClient), isPersistent := true)
    ensures result.NoStream? ==> r.store == s.(isPersistent := true)
    ensures Inv(s) ==> Inv(r.store)
  {
    var step := StartCapture(s, Some(selectedDevice), newClient, result);
    if step.thrown.Some? then Outcome(step.state, step.calls, Some(CaptureAlert))
    else Outcome(SetPersistent(step.state, true), step.calls, None)
  }

  /** `handleStopCapture`: stops the capture and turns persistence off. */
  function HandleStopCapture(s: State): (r: Outcome)
    ensures Idle(r.store) && Inv(r.store) && !r.store.isPersistent
    ensures r.alert.None?
    ensures r.calls == StopCapture(s).calls
  {
    var step := StopCapture(s);
    Outcome(SetPersistent(step.state, false), step.calls, None)
  }

  /** `handleStartStreaming`: without both an event key and a secret, alerts
      and never reaches the store; otherwise starts streaming with them and
      alerts if that throws. */
  function HandleStartStreaming(s: State, eventKey: Option<string>, secret: Option<string>, publishError: Option<string>): (r: Outcome)
    ensures !(Truthy(eventKey) && Truthy(secret)) ==> r == Outcome(s, [], Some(NoEventAlert))
    ensures Truthy(eventKey) && Truthy(secret) ==>
              (r.alert.None? <==> s.mediaStream.Some? && s.webRTCClient.Some? && publishError.None?)
    ensures r.alert.None? ==>
              r.store.isStreaming && r.store.currentEventKey == eventKey && r.store.currentSecret == secret
    ensures r.alert.None? ==> r.store == s.(isStreaming := true, currentEventKey := eventKey, currentSecret := secret)
    ensures r.alert.Some? && r.alert != Some(NoEventAlert) ==> r.alert == Some(StreamingAlert) && r.store == s
    ensures forall c :: c in r.calls ==> c.Publish? && c.config.key == eventKey.value && c.config.secret == secret
    ensures Inv(s) ==> Inv(r.store)
  {
    if !Truthy(eventKey) || !Truthy(secret) then Outcome(s, [], Some(NoEventAlert))
    else
      var step := StartStreaming(s, eventKey.value, secret.value, publishError);
      Outcome(step.state, step.calls, if step.thrown.Some? then Some(StreamingAlert) else None)
  }

  /** The streaming button: its action and whether it is disabled. */
  datatype StreamButton = StreamButton(stops: bool, disabled: bool)

  /** The streaming button exists only while capturing; it stops the stream
      while streaming and starts it otherwise, and it is disabled unless both
      an event key and a secret are present. */
  function StreamingControl(s: State, eventKey: Option<string>, secret: Option<string>): (b: Option<StreamButton>)
    ensures b.Some? <==> s.isCapturing
    ensures b.Some? ==> b.value.stops == s.isStreaming
    ensures b.Some? ==> (b.value.disabled <==> !(Truthy(eventKey) && Truthy(secret)))
  {
    if s.isCapturing then Some(StreamButton(s.isStreaming, !Truthy(eventKey) || !Truthy(secret))) else None
  }

  /** An enabled start button leads to a store call: pressing it passes the
      handler's guard, so the store's own guard decides. */
  lemma EnabledStartReachesStore(s: State, eventKey: Option<string>, secret: Option<string>, publishError: Option<string>)
    requires Inv(s)
    requires StreamingControl(s, eventKey, secret) == Some(StreamButton(false, false))
    ensures HandleStartStreaming(s, eventKey, secret, publishError).calls ==
              [Publish(s.webRTCClient.value, PublishConfig(eventKey.value, secret.value), s.mediaStream.value)]
    ensures publishError.None? ==> HandleStartStreaming(s, eventKey, secret, publishError).store.isStreaming
  {
  }

  /** The width, in percent, of the level bar: the level capped at 100. */
  function LevelBarWidth(level: real): (w: real)
    ensures w <= 100.0 && w <= level
    ensures w == level || w == 100.0
  {
    if level < 100.0 then level else 100.0
  }

  /** `Math.round(level)`, the number printed next to the bar: the nearest
      integer, halves rounded up. */
  function LevelLabel(level: real): (n: int)
    ensures level - 0.5 < n as real <= level + 0.5
  {
    (level + 0.5).Floor
  }
}

=== FILE: protected_route.dfy ===
/** The route guard (`ProtectedRoute`): checks the session and the
    profile's role once on mount, then renders a spinner, nothing, or the
    protected children. Supabase lookups are inputs; the navigation is an
    output. */
module ProtectedRoute {
  import opened Common
  import opened Roles

  const DefaultRedirect := "/login"

  /** How `getSession()` went. */
  datatype SessionLookup = SessionThrows | NoSession | Session(userId: string)

  /** How the profile query went: an exception, or the row's role (`None`
      for no row, or a row without a role: both fail the role test and fall
      to the default route). */
  datatype ProfileLookup = ProfileThrows | ProfileRole(role: Option<string>)

  /** The guard's state once `checkAuth` has finished. */
  datatype Check = Check(authorized: bool, loading: bool, redirect: Option<string>)

  /** `checkAuth` for the props `allowedRoles` (default none) and
      `redirectTo` (default "/login"). */
  function CheckAuth(allowedRoles: seq<string>, redirectTo: string, session: SessionLookup, profile: ProfileLookup): (r: Check)
    ensures !r.loading
    ensures r.authorized ==> r.redirect.None?
    ensures session.NoSession? || session.SessionThrows? ==> r == Check(false, false, Some(redirectTo))
    ensures session.Session? && |allowedRoles| == 0 ==> r == Check(true, false, None)
    ensures session.Session? && |allowedRoles| > 0 ==>
              match profile
              case ProfileThrows => r == Check(false, false, Some(redirectTo))
              case ProfileRole(role) =>
                (r.authorized <==> role.Some? && role.value in allowedRoles)
                && (!r.authorized ==> r.redirect == Some(LandingRoute(role)))
  {
    match session
    case SessionThrows => Check(false, false, Some(redirectTo))
    case NoSession => Check(false, false, Some(redirectTo))
    case Session(_) =>
      if |allowedRoles| == 0 then Check(true, false, None)
      else
        match profile
        case ProfileThrows => Check(false, false, Some(redirectTo))
        case ProfileRole(role) =>
          if role.Some? && role.value in allowedRoles then Check(true, false, None)
          else Check(false, false, Some(LandingRoute(role)))
  }

  /** A refused user with a role is sent to the area of that role, which
      admits them; so the guard on that area lets them through. */
  lemma RefusedUserLandsWhereAdmitted(allowedRoles: seq<string>, redirectTo: string, userId: string, role: string)
    requires !CheckAuth(allowedRoles, redirectTo, Session(userId), ProfileRole(Some(role))).authorized
    requires |allowedRoles| > 0
    ensures var target := CheckAuth(allowedRoles, redirectTo, Session(userId), ProfileRole(Some(role))).redirect.value;
            && (target == AdminRoute ==> CheckAuth(AdminRoles, redirectTo, Session(userId), ProfileRole(Some(role))).authorized)
            && (target == TranslatorRoute ==> CheckAuth(TranslatorRoles, redirectTo, Session(userId), ProfileRole(Some(role))).authorized)
  {
    LandingRouteAdmits(Some(role));
  }

  /** What the guard renders. */
  datatype View = Spinner | Nothing | Children

  function Render(loading: bool, authorized: bool): (v: View)
    ensures v == Children <==> !loading && authorized
    ensures v == Spinner <==> loading
  {
    if loading then Spinner else if !authorized then Nothing else Children
  }

  /** The children appear only after a check that authorised the user. */
  lemma ChildrenOnlyWhenAuthorized(allowedRoles: seq<string>, redirectTo: string, session: SessionLookup, profile: ProfileLookup)
    ensures var c := CheckAuth(allowedRoles, redirectTo, session, profile);
            Render(c.loading, c.authorized) == Children <==> session.Session? && c.authorized
  {
  }

  /** The auth-state listener: signing out, or losing the session, sends
      the user to `redirectTo`. */
  function OnAuthStateChange(event: string, hasSession: bool, redirectTo: string): (redirect: Option<string>)
    ensures redirect.Some? <==> event == "SIGNED_OUT" || !hasSession
    ensures redirect.Some? ==> redirect.value == redirectTo
  {
    if event == "SIGNED_OUT" || !hasSession then Some(redirectTo) else None
  }

  /** The listener and the check on mount agree about a missing session:
      both send the user to `redirectTo`, whatever the event and the
      profile; and with a live session the listener only acts on signing
      out. */
  lemma ListenerAgreesWithCheck(allowedRoles: seq<string>, redirectTo: string, event: string, profile: ProfileLookup)
    ensures OnAuthStateChange(event, false, redirectTo) == CheckAuth(allowedRoles, redirectTo, NoSession, profile).redirect
    ensures OnAuthStateChange(event, true, redirectTo).Some? <==> event == "SIGNED_OUT"
  {
  }
}

=== FILE: roles.dfy ===
/** The role table shared by the login page and the route guard: where a
    user of each role lands, and which roles each protected area admits. */
module Roles {
  import opened Common

  const AdminRoute := "/admin"
  const TranslatorRoute := "/translator"
  const HomeRoute := "/"

  /** The roles the admin and translator layouts pass to the route guard. */
  const AdminRoles: seq<string> := ["SUPER_ADMIN", "ADMIN"]
  const TranslatorRoles: seq<string> := ["TRANSLATOR"]

  /** The role switch: administrators go to the admin area, translators to
      the translator area, every other role (or no profile) home. */
  function LandingRoute(role: Option<string>): (route: string)
    ensures route == AdminRoute || route == TranslatorRoute || route == HomeRoute
    ensures role.None? ==> route == HomeRoute
  {
    match role
    case Some("SUPER_ADMIN") => AdminRoute
    case Some("ADMIN") => AdminRoute
    case Some("TRANSLATOR") => TranslatorRoute
    case _ => HomeRoute
  }

  /** The landing table agrees with the layouts: a user sent to a protected
      area holds a role that area admits, and every role the areas admit is
      sent to its own area; everyone else lands on the unprotected home page.
      So a redirect by role never bounces the user off again. */
  lemma LandingRouteAdmits(role: Option<string>)
    ensures LandingRoute(role) == AdminRoute <==> role.Some? && role.value in AdminRoles
    ensures LandingRoute(role) == TranslatorRoute <==> role.Some? && role.value in TranslatorRoles
    ensures LandingRoute(role) == HomeRoute <==> !(role.Some? && role.value in AdminRoles + TranslatorRoles)
  {
  }
}

=== FILE: stream_player.dfy ===
/** The audience player (`StreamPlayer`): chooses how to play a language
    stream (the shared WebRTC client's remote stream, or the Flue.live HLS
    fallback, or the stream's own URL), which media element plays it, and at
    what volume. */
module StreamPlayer {
  import opened Common
  import opened Media

  /** The fields of the `stream` prop the player reads. */
  datatype StreamInfo = StreamInfo(
    inputType: Option<string>,    // input_type
    flueKey: Option<string>,      // flue_key
    streamType: Option<string>,   // stream_type
    url: Option<string>)          // url

  datatype ConnectionType = WebRtc | Hls | Disconnected   // "webrtc" | "hls" | "none"

  datatype Element = VideoElement | AudioElement

  /** The player's connection state: the connection type and the URL given
      to the media element's `src`. */
  datatype Player = Player(connectionType: ConnectionType, streamUrl: Option<string>)

  const InitialPlayer := Player(Disconnected, Some(""))

  /** What `webRTCClient.getRemoteStream()` gave: a stream, nothing, or an
      exception. */
  datatype RemoteProbe = RemoteStream(stream: StreamId) | NoRemoteStream | ProbeThrows

  /** Video (and sign-language video) streams play in a `<video>`; all others
      in an `<audio>`. */
  predicate IsVideoStream(stream: StreamInfo)
    ensures IsVideoStream(stream) ==> stream.streamType.Some? && stream.streamType.value in {"VIDEO", "LIBRAS"}
    ensures stream.streamType.None? ==> !IsVideoStream(stream)
  {
    stream.streamType == Some("VIDEO") || stream.streamType == Some("LIBRAS")
  }

  /** The element the play/pause and volume effects drive
      (`stream?.stream_type`); with no stream, the audio element. */
  function ElementFor(stream: Option<StreamInfo>): (e: Element)
    ensures stream.None? ==> e == AudioElement
    ensures e == VideoElement <==> stream.Some? && stream.value.streamType in {Some("VIDEO"), Some("LIBRAS")}
  {
    if stream.Some? && IsVideoStream(stream.value) then VideoElement else AudioElement
  }

  predicate UsesFlue(stream: StreamInfo) {
    stream.inputType == Some("flue") && Truthy(stream.flueKey)
  }

  /** The outcome of `setupStream`: the new player state and the remote
      stream attached to a media element, if one was. */
  datatype Setup = Setup(player: Player, attached: Option<(Element, StreamId)>)

  /** `setupStream`: with no stream, nothing changes. A Flue stream with a
      key plays the remote WebRTC stream when there is one, on the element
      matching its type, and leaves the URL alone; without a remote stream
      (or when probing throws) it falls back to HLS from the WHEP URL of the
      key. Every other stream plays its own URL over HLS. */
  function SetupStream(p: Player, stream: Option<StreamInfo>, probe: RemoteProbe): (r: Setup)
    ensures stream.None? ==> r == Setup(p, None)
    ensures stream.Some? && UsesFlue(stream.value) && probe.RemoteStream? ==>
              r.player == p.(connectionType := WebRtc)
              && r.attached == Some((if IsVideoStream(stream.value) then VideoElement else AudioElement, probe.stream))
    ensures stream.Some? && UsesFlue(stream.value) && !probe.RemoteStream? ==>
              r == Setup(Player(Hls, Some(WhepUrl(stream.value.flueKey.value))), None)
    ensures stream.Some? && !UsesFlue(stream.value) ==> r == Setup(Player(Hls, stream.value.url), None)
    ensures stream.Some? ==> (r.player.connectionType == WebRtc <==> r.attached.Some?)
  {
    match stream
    case None => Setup(p, None)
    case Some(info) =>
      if UsesFlue(info) then
        match probe
        case RemoteStream(m) => Setup(p.(connectionType := WebRtc), Some((if IsVideoStream(info) then VideoElement else AudioElement, m)))
        case _ => Setup(Player(Hls, Some(WhepUrl(info.flueKey.value))), None)
      else Setup(Player(Hls, info.url), None)
  }

  /** One notion of "video stream" throughout: the element a remote stream
      is attached to is the one the play/pause and volume effects drive, and
      it is the video element exactly for VIDEO and LIBRAS streams. */
  lemma AttachedElementIsDrivenElement(p: Player, info: StreamInfo, probe: RemoteProbe)
    requires SetupStream(p, Some(info), probe).attached.Some?
    ensures SetupStream(p, Some(info), probe).attached.value.0 == ElementFor(Some(info))
    ensures ElementFor(Some(info)) == VideoElement <==> info.streamType in {Some("VIDEO"), Some("LIBRAS")}
  {
  }

  /** The fallback URL names the stream by its key only: the key can be read
      back from the player state whenever the unencoded URL carries it
      intact. */
  lemma FallbackNamesFlueKey(p: Player, info: StreamInfo, probe: RemoteProbe)
    requires UsesFlue(info) && !probe.RemoteStream?
    ensures SafeAtEnd(info.flueKey.value) ==>
              WhepKey(SetupStream(p, Some(info), probe).player.streamUrl.value) == info.flueKey
  {
    if SafeAtEnd(info.flueKey.value) {
      WhepUrlRoundTrip(info.flueKey.value);
    }
  }

  /** The media element's `src`: the stream URL over HLS, none otherwise. */
  function ElementSource(p: Player): (src: Option<string>)
    ensures p.connectionType == Hls ==> src == p.streamUrl
    ensures p.connectionType != Hls ==> src.None?
  {
    if p.connectionType == Hls then p.streamUrl else None
  }

  /** The volume effect: silent when muted, else the slider (0 to 100) as a
      fraction. */
  function EffectiveVolume(isMuted: bool, slider: int): (v: real)
    ensures isMuted ==> v == 0.0
    ensures !isMuted ==> v * 100.0 == slider as real
    ensures 0 <= slider <= 100 ==> 0.0 <= v <= 1.0
  {
    if isMuted then 0.0 else slider as real / 100.0
  }

  /** `togglePlay`: reports the opposite of the current playing state to the
      parent, when the parent listens. */
  function TogglePlay(isPlaying: bool, hasCallback: bool): (reported: Option<bool>)
    ensures reported.Some? <==> hasCallback
    ensures reported.Some? ==> reported.value != isPlaying
  {
    if hasCallback then Some(!isPlaying) else None
  }

  /** The three texts the player shows for its connection: the badge, the
      status word, and the status dot's colour class. */
  function BadgeText(t: ConnectionType): (text: string)
    ensures t != Disconnected ==> StartsWith(text, StatusText(t))
  {
    match t
    case WebRtc => "WebRTC (Baixa Latência)"
    case Hls => "HLS (Flue.live)"
    case Disconnected => "Desconectado"
  }

  function StatusText(t: ConnectionType): (text: string)
    ensures text == "Offline" <==> t == Disconnected
  {
    match t
    case WebRtc => "WebRTC"
    case Hls => "HLS"
    case Disconnected => "Offline"
  }

  function StatusColour(t: ConnectionType): (colour: string)
    ensures StartsWith(colour, "bg-") && |colour| > 7 && colour[|colour| - 4..] == "-500"
  {
    match t
    case WebRtc => "bg-green-500"
    case Hls => "bg-yellow-500"
    case Disconnected => "bg-red-500"
  }

  /** Each of the three indicators tells every connection type apart. */
  lemma IndicatorsDistinguishConnections(a: ConnectionType, b: ConnectionType)
    ensures BadgeText(a) == BadgeText(b) <==> a == b
    ensures StatusText(a) == StatusText(b) <==> a == b
    ensures StatusColour(a) == StatusColour(b) <==> a == b
  {
  }
}

=== FILE: translation_controller.dfy ===
/** The translator's console (`TranslationController`): a second capture
    path held in component refs, independent of the store. It connects the
    microphone, listens to the event's main stream (egress, WHEP) and
    transmits the translation (ingress, WHIP). Connection and transmission
    flags belong to the parent page and are reported through callbacks; the
    console's own state is its refs and its `isRecording` / `isListening`
    flags. */
module TranslationController {
  import opened Common
  import opened Media

  /** A value of the analyser's `Uint8Array`. */
  type Byte = b: int | 0 <= b < 256

  datatype Console = Console(
    picker: DevicePicker,
    isRecording: bool,
    isListening: bool,
    mediaStream: Option<StreamId>,      // mediaStreamRef
    audioContext: Option<ContextId>,    // audioContextRef
    analyser: Option<AnalyserId>,       // analyserRef
    ingress: Option<ClientId>,          // ingressClientRef
    egress: Option<ClientId>,           // egressClientRef
    outputSource: Option<StreamId>)     // srcObject of the hidden output <audio>

  const InitialConsole := Console(DevicePicker([], ""), false, false, None, None, None, None, None, None)

  /** A callback into the parent page. */
  datatype Report = ConnectionChanged(connected: bool) | TransmissionChanged(transmitting: bool)

  /** What one handler did: the next console, the external calls made, the
      callbacks invoked, and the alert raised. */
  datatype Step = Step(console: Console, calls: seq<Call>, reports: seq<Report>, alert: Option<string>)

  const MicAlert := "Erro ao conectar microfone. Verifique as permissões."
  const NoEventKeyAlert := "Chave do stream principal não configurada"
  const ListenAlert := "Erro ao conectar ao stream principal"
  const NotReadyAlert := "Conecte o microfone e configure as chaves de stream primeiro"
  const TransmitAlert := "Erro ao iniciar transmissão da tradução"

  /** How acquiring the microphone went: the stream with the audio context
      and analyser built on it; a refusal by `getUserMedia`, which keeps
      nothing; or a failure while building the audio graph, after the stream
      has already been stored. */
  datatype MicResult =
    | Granted(stream: StreamId, context: ContextId, analyserNode: AnalyserId)
    | Refused
    | SetupFailed(stream: StreamId)

  /** `connectMicrophone`: requests the selected device (or the default);
      on success keeps the stream, context and analyser and reports the
      connection. On a refusal it alerts and changes nothing; when building
      the audio graph fails it alerts too, but the stream stays stored, live,
      without a context or an analyser, and no connection is reported. */
  function ConnectMicrophone(c: Console, result: MicResult): (r: Step)
    ensures r.calls == [GetUserMedia(AudioConstraints(Some(c.picker.selected)))]
    ensures result.Refused? ==> r.console == c && r.reports == [] && r.alert == Some(MicAlert)
    ensures result.SetupFailed? ==>
              r.console == c.(mediaStream := Some(result.stream)) && r.reports == [] && r.alert == Some(MicAlert)
    ensures result.Granted? ==>
              && r.console.mediaStream == Some(result.stream)
              && r.console.audioContext == Some(result.context)
              && r.console.analyser == Some(result.analyserNode)
              && r.console.(mediaStream := c.mediaStream, audioContext := c.audioContext, analyser := c.analyser) == c
              && r.reports == [ConnectionChanged(true)] && r.alert.None?
    ensures r.alert.None? <==> result.Granted?
  {
    var calls := [GetUserMedia(AudioConstraints(Some(c.picker.selected)))];
    match result
    case Refused => Step(c, calls, [], Some(MicAlert))
    case SetupFailed(m) => Step(c.(mediaStream := Some(m)), calls, [], Some(MicAlert))
    case Granted(m, ctx, an) =>
      Step(c.(mediaStream := Some(m), audioContext := Some(ctx), analyser := Some(an)), calls, [ConnectionChanged(true)], None)
  }

  /** `disconnectMicrophone`: stops the tracks, closes the context, drops the
      analyser, reports no connection and no transmission, and clears the
      recording and listening flags. The ingress and egress clients and the
      output source are left as they are: nothing disconnects them here. */
  function DisconnectMicrophone(c: Console): (r: Step)
    ensures r.console.mediaStream.None? && r.console.audioContext.None? && r.console.analyser.None?
    ensures !r.console.isRecording && !r.console.isListening
    ensures r.console.ingress == c.ingress && r.console.egress == c.egress
    ensures r.console.outputSource == c.outputSource && r.console.picker == c.picker
    ensures r.reports == [ConnectionChanged(false), TransmissionChanged(false)]
    ensures r.alert.None?
    ensures c.mediaStream.Some? ==> StopTracks(c.mediaStream.value) in r.calls
    ensures c.audioContext.Some? ==> CloseContext(c.audioContext.value) in r.calls
    ensures forall call :: call in r.calls ==>
              || (call.StopTracks? && c.mediaStream == Some(call.stream))
              || (call.CloseContext? && c.audioContext == Some(call.context))
  {
    var stops := if c.mediaStream.Some? then [StopTracks(c.mediaStream.value)] else [];
    var closes := if c.audioContext.Some? then [CloseContext(c.audioContext.value)] else [];
    Step(c.(mediaStream := None, audioContext := None, analyser := None, isRecording := false, isListening := false),
         stops + closes, [ConnectionChanged(false), TransmissionChanged(false)], None)
  }

  /** The output gain slider's upper end, in percent. */
  const MaxOutputGain := 150

  /** Assigning `volume` on a media element: values outside [0, 1] make the
      setter throw an IndexSizeError (HTML standard, section 4.8.11.13);
      `None` stands for that exception. */
  function ElementVolume(v: real): Option<real> {
    if 0.0 <= v <= 1.0 then Some(v) else None
  }

  /** The volume the source assigns for an output gain: `gain / 100`. */
  function OutputVolumeAsWritten(gain: int): real {
    gain as real / 100.0
  }

  /** With the slider above 100% the assignment throws: at the slider's top
      the volume is 1.5, which the element refuses. */
  lemma OutputVolumeAsWrittenRejected()
    ensures ElementVolume(OutputVolumeAsWritten(MaxOutputGain)).None?
  {
  }

  /** The output volume for a gain in percent, capped at full volume: every
      slider position gives a volume the element accepts, and positions up to
      100% give exactly `gain / 100`. */
  function OutputVolume(gain: int): (v: real)
    ensures 0 <= gain ==> ElementVolume(v) == Some(v)
    ensures 0 <= gain <= 100 ==> v == OutputVolumeAsWritten(gain)
    ensures 100 <= gain ==> v == 1.0
  {
    if gain < 100 then gain as real / 100.0 else 1.0
  }

  /** The volume assignment on the output element, as the source writes it
      both when listening starts and in the slider's effect: `gain / 100`,
      or `None` when the setter throws. */
  function AssignedOutputVolume(gain: int): (v: Option<real>)
    ensures 0 <= gain <= 100 ==> v == Some(OutputVolumeAsWritten(gain))
    ensures gain < 0 || 100 < gain ==> v.None?
  {
    ElementVolume(OutputVolumeAsWritten(gain))
  }

  /** The output slider's initial position and its positions: 0 to 150 in
      steps of 5. */
  const InitialOutputGain := 80

  predicate SliderPosition(gain: int) {
    0 <= gain <= MaxOutputGain && gain % 5 == 0
  }

  /** The effect that runs whenever the output slider moves. The output
      element is always mounted, so it assigns `gain / 100` to the element's
      volume; `None` is the IndexSizeError that the assignment throws, which
      escapes the effect. */
  function OutputGainEffect(gain: int): (v: Option<real>)
    ensures v.Some? ==> 0.0 <= v.value <= 1.0
  {
    AssignedOutputVolume(gain)
  }

  /** The slider starts at a position the element accepts, and every
      position past full volume, from the first one (105) on, makes the
      effect throw. So the output gain never exceeds 100 without that
      exception having been raised first, before any `startListening` could
      read it. */
  lemma SlidingPastFullVolumeThrows(gain: int)
    requires SliderPosition(gain)
    ensures OutputGainEffect(InitialOutputGain) == Some(0.8)
    ensures OutputGainEffect(gain).None? <==> gain > 100
    ensures gain > 100 ==> gain >= 105
  {
  }

  /** With the corrected volume, the effect accepts every slider position. */
  lemma CappedEffectAcceptsEverySlider(gain: int)
    requires SliderPosition(gain)
    ensures ElementVolume(OutputVolume(gain)).Some?
    ensures gain <= 100 ==> ElementVolume(OutputVolume(gain)) == OutputGainEffect(gain)
  {
  }

  /** How subscribing to the main stream went: failure, or success with the
      remote stream (if the client exposes one) and whether `play()` then
      rejected. */
  datatype ListenResult = ListenFailed | Subscribed(remote: Option<StreamId>, playFails: bool)

  /** The body of `startListening` for a given volume assignment (`None`
      when it throws): the remote stream is attached before the volume is
      set, and played only after. */
  function Listen(c: Console, eventStreamKey: Option<string>, newClient: ClientId, volume: Option<real>, result: ListenResult): Step {
    if !Truthy(eventStreamKey) then Step(c, [], [], Some(NoEventKeyAlert))
    else
      var key := eventStreamKey.value;
      var withClient := c.(egress := Some(newClient));
      var subscribe := Subscribe(newClient, StreamConfig(key, None, WhepUrl(key)));
      match result
      case ListenFailed => Step(withClient, [subscribe], [], Some(ListenAlert))
      case Subscribed(None, _) => Step(withClient.(isListening := true), [subscribe], [], None)
      case Subscribed(Some(remote), playFails) =>
        var attached := withClient.(outputSource := Some(remote));
        match volume
        case None => Step(attached, [subscribe], [], Some(ListenAlert))
        case Some(v) =>
          var calls := [subscribe, PlayOutput(remote, v)];
          if playFails then Step(attached, calls, [], Some(ListenAlert))
          else Step(attached.(isListening := true), calls, [], None)
  }

  /** `startListening`: without an event stream key, alerts and does
      nothing. Otherwise stores a new egress client, subscribes it to the
      WHEP URL of the key (no secret), attaches the remote stream, if any, to
      the output element, sets its volume to `gain / 100` and plays it;
      listening is set only when all of that succeeds, so an output gain
      above 100 makes listening to a remote stream fail. A failed subscribe,
      or a subscription without a remote stream, leaves the output element
      alone. */
  function StartListening(c: Console, eventStreamKey: Option<string>, newClient: ClientId, outputGain: int, result: ListenResult): (r: Step)
    ensures !Truthy(eventStreamKey) ==> r == Step(c, [], [], Some(NoEventKeyAlert))
    ensures Truthy(eventStreamKey) ==>
              && r.console.egress == Some(newClient)
              && |r.calls| >= 1
              && r.calls[0] == Subscribe(newClient, StreamConfig(eventStreamKey.value, None, WhepUrl(eventStreamKey.value)))
    ensures r.alert.None? <==>
              && Truthy(eventStreamKey) && result.Subscribed?
              && !(result.remote.Some? && (AssignedOutputVolume(outputGain).None? || result.playFails))
    ensures r.alert.None? ==> r.console.isListening
    ensures r.alert.Some? ==> r.console.isListening == c.isListening
    ensures Truthy(eventStreamKey) && result.Subscribed? && result.remote.Some? ==>
              && r.console.outputSource == result.remote
              && (AssignedOutputVolume(outputGain).Some? ==>
                    r.calls == [r.calls[0], PlayOutput(result.remote.value, AssignedOutputVolume(outputGain).value)])
              && (AssignedOutputVolume(outputGain).None? ==> r.calls == [r.calls[0]])
    ensures Truthy(eventStreamKey) && !(result.Subscribed? && result.remote.Some?) ==>
              r.console.outputSource == c.outputSource && |r.calls| == 1
    ensures r.console.(egress := c.egress, outputSource := c.outputSource, isListening := c.isListening) == c
    ensures forall call :: call in r.calls ==> !call.Publish?
    ensures r.reports == []
  {
    Listen(c, eventStreamKey, newClient, AssignedOutputVolume(outputGain), result)
  }

  /** `startListening` with the output volume capped at full volume: the
      volume assignment never throws, so listening fails only when
      subscribing or playing does. */
  function StartListeningCapped(c: Console, eventStreamKey: Option<string>, newClient: ClientId, outputGain: int, result: ListenResult): (r: Step)
    ensures 0 <= outputGain ==>
              (r.alert.None? <==> Truthy(eventStreamKey) && result.Subscribed? && !(result.remote.Some? && result.playFails))
    ensures Truthy(eventStreamKey) && result.Subscribed? && result.remote.Some? && 0 <= outputGain ==>
              |r.calls| == 2 && r.calls[1] == PlayOutput(result.remote.value, OutputVolume(outputGain))
    ensures r.console.(egress := c.egress, outputSource := c.outputSource, isListening := c.isListening) == c
  {
    Listen(c, eventStreamKey, newClient, Some(OutputVolume(outputGain)), result)
  }

  /** Up to full volume the capped handler is the one as written. */
  lemma CappedListeningAgreesUpToFullVolume(c: Console, eventStreamKey: Option<string>, newClient: ClientId, outputGain: int, result: ListenResult)
    requires 0 <= outputGain <= 100
    ensures StartListeningCapped(c, eventStreamKey, newClient, outputGain, result) == StartListening(c, eventStreamKey, newClient, outputGain, result)
  {
  }

  /** Above full volume, the handler as written fails to listen to a remote
      stream although subscribing and playing would succeed; the capped
      handler listens. This is the handler alone: in the component such a
      gain is only reached through the slider's effect, which throws first
      (`SlidingPastFullVolumeThrows`). */
  lemma ListeningAboveFullVolumeFails(c: Console, eventStreamKey: Option<string>, newClient: ClientId, outputGain: int, remote: StreamId)
    requires Truthy(eventStreamKey) && 100 < outputGain <= MaxOutputGain
    ensures StartListening(c, eventStreamKey, newClient, outputGain, Subscribed(Some(remote), false)).alert == Some(ListenAlert)
    ensures StartListeningCapped(c, eventStreamKey, newClient, outputGain, Subscribed(Some(remote), false)).console.isListening
  {
  }

  /** `stopListening`: disconnects and forgets the egress client if there
      is one, detaches the output and clears the listening flag. */
  function StopListening(c: Console): (r: Step)
    ensures r.console.egress.None? && r.console.outputSource.None? && !r.console.isListening
    ensures r.console.(egress := c.egress, outputSource := c.outputSource, isListening := c.isListening) == c
    ensures c.egress.Some? ==> r.calls == [Disconnect(c.egress.value), DetachOutput]
    ensures c.egress.None? ==> r.calls == [DetachOutput]
    ensures r.reports == [] && r.alert.None?
  {
    var disconnects := if c.egress.Some? then [Disconnect(c.egress.value)] else [];
    Step(c.(egress := None, outputSource := None, isListening := false), disconnects + [DetachOutput], [], None)
  }

  /** `startTransmission`: refused with an alert unless the microphone is
      connected and a translation key and secret are both present. Otherwise
      stores a new ingress client and publishes the microphone stream, and
      nothing else, to the WHIP URL built from the key and the secret; the
      transmission is reported only when publishing succeeds. */
  function StartTransmission(c: Console, translationStreamKey: Option<string>, flueSecret: Option<string>, newClient: ClientId, publishError: bool): (r: Step)
    ensures !(c.mediaStream.Some? && Truthy(translationStreamKey) && Truthy(flueSecret)) ==>
              r == Step(c, [], [], Some(NotReadyAlert))
    ensures c.mediaStream.Some? && Truthy(translationStreamKey) && Truthy(flueSecret) ==>
              && r.console == c.(ingress := Some(newClient))
              && r.calls == [Publish(newClient,
                                     StreamConfig(translationStreamKey.value, flueSecret, WhipUrl(translationStreamKey.value, flueSecret.value)),
                                     c.mediaStream.value)]
              && (r.reports == [TransmissionChanged(true)] <==> !publishError)
              && (r.alert == Some(TransmitAlert) <==> publishError)
    ensures forall call :: call in r.calls ==> call.Publish? && Some(call.stream) == c.mediaStream
  {
    if c.mediaStream.None? || !Truthy(translationStreamKey) || !Truthy(flueSecret) then Step(c, [], [], Some(NotReadyAlert))
    else
      var key := translationStreamKey.value;
      var config := StreamConfig(key, flueSecret, WhipUrl(key, flueSecret.value));
      var calls := [Publish(newClient, config, c.mediaStream.value)];
      if publishError then Step(c.(ingress := Some(newClient)), calls, [], Some(TransmitAlert))
      else Step(c.(ingress := Some(newClient)), calls, [TransmissionChanged(true)], None)
  }

  /** `stopTransmission`: with no ingress client, a no-op without callbacks;
      otherwise disconnects and forgets it and reports no transmission. */
  function StopTransmission(c: Console): (r: Step)
    ensures c.ingress.None? ==> r == Step(c, [], [], None)
    ensures c.ingress.Some? ==>
              r == Step(c.(ingress := None), [Disconnect(c.ingress.value)], [TransmissionChanged(false)], None)
  {
    match c.ingress
    case None => Step(c, [], [], None)
    case Some(client) => Step(c.(ingress := None), [Disconnect(client)], [TransmissionChanged(false)], None)
  }

  function Sum(bins: seq<Byte>): nat {
    if |bins| == 0 then 0 else Sum(bins[..|bins| - 1]) + bins[|bins| - 1]
  }

  lemma {:induction false} SumBounds(bins: seq<Byte>)
    ensures Sum(bins) <= 255 * |bins|
    ensures Sum(bins) == 0 <==> forall i :: 0 <= i < |bins| ==> bins[i] == 0
    ensures Sum(bins) == 255 * |bins| <==> forall i :: 0 <= i < |bins| ==> bins[i] == 255
  {
    if |bins| > 0 {
      var init := bins[..|bins| - 1];
      SumBounds(init);
      assert forall i :: 0 <= i < |init| ==> init[i] == bins[i];
    }
  }

  lemma MeanBounds(total: real, n: real)
    requires n > 0.0 && 0.0 <= total <= 255.0 * n
    ensures 0.0 <= total / n <= 255.0
    ensures total / n == 0.0 <==> total == 0.0
    ensures total / n == 255.0 <==> total == 255.0 * n
  {
    var m := total / n;
    assert m * n == total;
    assert (m - 255.0) * n == total - 255.0 * n;
  }

  /** The level reported each frame: the mean of the analyser's byte
      frequency bins as a percentage of 255. The analyser has an FFT size of
      256, so it always has 128 bins and the mean is defined. */
  function NormalisedLevel(bins: seq<Byte>): (level: real)
    requires |bins| > 0
    ensures 0.0 <= level <= 100.0
    ensures level == 0.0 <==> forall i :: 0 <= i < |bins| ==> bins[i] == 0
    ensures level == 100.0 <==> forall i :: 0 <= i < |bins| ==> bins[i] == 255
  {
    SumBounds(bins);
    var average := Sum(bins) as real / |bins| as real;
    MeanBounds(Sum(bins) as real, |bins| as real);
    (average / 255.0) * 100.0
  }

  /** One frame of the level loop: a level is reported only while the page
      says the microphone is connected and the analyser exists. */
  function PollLevel(isConnected: bool, c: Console, bins: seq<Byte>): (level: Option<real>)
    requires |bins| > 0
    ensures level.Some? <==> isConnected && c.analyser.Some?
    ensures level.Some? ==> 0.0 <= level.value <= 100.0
  {
    if isConnected && c.analyser.Some? then Some(NormalisedLevel(bins)) else None
  }

  /** The audio path never crosses over: whatever the console has been
      listening to, a transmission publishes the microphone stream and
      nothing else, through the new ingress client, never the egress one. */
  lemma TransmissionPublishesMicrophoneOnly(c: Console, key: Option<string>, secret: Option<string>, newClient: ClientId, publishError: bool)
    requires c.egress != Some(newClient)
    ensures forall call :: call in StartTransmission(c, key, secret, newClient, publishError).calls ==>
              call.Publish? && Some(call.stream) == c.mediaStream && call.client == newClient && Some(call.client) != c.egress
  {
  }

  /** The refs the console keeps consistent: an analyser exactly when an
      audio context, a context only over a stored stream, and listening or
      an attached output only with an egress client. Recording never
      starts. */
  predicate Inv(c: Console) {
    && (c.analyser.Some? <==> c.audioContext.Some?)
    && (c.audioContext.Some? ==> c.mediaStream.Some?)
    && (c.isListening ==> c.egress.Some?)
    && (c.outputSource.Some? ==> c.egress.Some?)
    && !c.isRecording
  }

  /** One console handler with the outcomes of its external calls. */
  datatype Action =
    | RefreshAction(enumeration: Option<seq<DeviceInfo>>)
    | ConnectAction(micResult: MicResult)
    | DisconnectAction
    | ListenAction(eventStreamKey: Option<string>, newClient: ClientId, outputGain: int, listenResult: ListenResult)
    | StopListenAction
    | TransmitAction(translationStreamKey: Option<string>, flueSecret: Option<string>, newClient: ClientId, publishError: bool)
    | StopTransmitAction

  function Apply(c: Console, a: Action): Console {
    match a
    case RefreshAction(e) => c.(picker := RefreshDevices(c.picker, e))
    case ConnectAction(res) => ConnectMicrophone(c, res).console
    case DisconnectAction => DisconnectMicrophone(c).console
    case ListenAction(k, n, g, res) => StartListening(c, k, n, g, res).console
    case StopListenAction => StopListening(c).console
    case TransmitAction(k, sec, n, e) => StartTransmission(c, k, sec, n, e).console
    case StopTransmitAction => StopTransmission(c).console
  }

  /** The console after a sequence of handlers. */
  function Run(c: Console, actions: seq<Action>): Console
    decreases |actions|
  {
    if |actions| == 0 then c else Run(Apply(c, actions[0]), actions[1..])
  }

  lemma ApplyKeepsInv(c: Console, a: Action)
    requires Inv(c)
    ensures Inv(Apply(c, a))
  {
    match a
    case RefreshAction(e) =>
    case ConnectAction(res) =>
    case DisconnectAction =>
    case ListenAction(k, n, g, res) =>
    case StopListenAction =>
    case TransmitAction(k, sec, n, e) =>
    case StopTransmitAction =>
  }

  /** Every sequence of handlers from a consistent console keeps it
      consistent. */
  lemma {:induction false} RunKeepsInv(c: Console, actions: seq<Action>)
    requires Inv(c)
    ensures Inv(Run(c, actions))
    decreases |actions|
  {
    if |actions| > 0 {
      ApplyKeepsInv(c, actions[0]);
      RunKeepsInv(Apply(c, actions[0]), actions[1..]);
    }
  }

  /** The invariant holds in every console the handlers can reach. */
  lemma ReachableConsolesAreConsistent(actions: seq<Action>)
    ensures Inv(Run(InitialConsole, actions))
  {
    RunKeepsInv(InitialConsole, actions);
  }

  /** A stream does not imply an audio graph: after a connection whose
      graph could not be built, the microphone stream is held, live, with no
      context and no analyser, and nothing reported it. */
  lemma FailedSetupKeepsStream(m: StreamId)
    ensures var c := Run(InitialConsole, [ConnectAction(SetupFailed(m))]);
            c.mediaStream == Some(m) && c.audioContext.None? && c.analyser.None?
    ensures ConnectMicrophone(InitialConsole, SetupFailed(m)).reports == []
  {
  }

  /** Connecting and then disconnecting ends where disconnecting alone
      would; a stream that was granted is stopped and its context closed. */
  lemma ConnectThenDisconnectLeavesNothing(c: Console, result: MicResult)
    ensures DisconnectMicrophone(ConnectMicrophone(c, result).console).console == DisconnectMicrophone(c).console
    ensures result.Granted? ==>
              DisconnectMicrophone(ConnectMicrophone(c, result).console).calls == [StopTracks(result.stream), CloseContext(result.context)]
  {
  }

  /** Listening and then stopping ends where stopping alone would, and the
      client listening used is the one disconnected. */
  lemma ListenThenStopLeavesNothing(c: Console, eventStreamKey: Option<string>, newClient: ClientId, outputGain: int, result: ListenResult)
    ensures StopListening(StartListening(c, eventStreamKey, newClient, outputGain, result).console).console == StopListening(c).console
    ensures Truthy(eventStreamKey) ==>
              StopListening(StartListening(c, eventStreamKey, newClient, outputGain, result).console).calls == [Disconnect(newClient), DetachOutput]
  {
  }

  /** Transmitting and then stopping ends where stopping alone would; a
      transmission that started is disconnected and reported off. */
  lemma TransmitThenStopLeavesNothing(c: Console, key: Option<string>, secret: Option<string>, newClient: ClientId, publishError: bool)
    ensures StopTransmission(StartTransmission(c, key, secret, newClient, publishError).console).console == StopTransmission(c).console
    ensures c.mediaStream.Some? && Truthy(key) && Truthy(secret) ==>
              StopTransmission(StartTransmission(c, key, secret, newClient, publishError).console).calls == [Disconnect(newClient)]
  {
  }
}
